=== FILE: README.md ===
# Kaleidoscope collision masks, modelled in Dafny

The game shows two tile layers, grey and color, and a circular "kaleidoscope" mask that the
player moves over them. Inside the circle the color world is solid; outside it the grey world
is. Every frame the kaleidoscope scans the cells around the mask. For each tile it touches, it
binds a pooled *partial block*: a polygon collider cut from the tile along the circle.

- Grey-layer blocks (`reversed` false) replace the tile of the working *mixed* layer. While such
  a block is bound, the mixed tile is null. The block puts the tile back when it is released.
- Color-layer blocks (`reversed` true) mark their cell in a 31 x 31 array of color-square flags.
- Each block re-classifies its four corners against the circle every frame. It then either
  releases itself, disables its collider (a grey tile wholly inside the mask), or rebuilds a
  clockwise outline from the corners it keeps and the points where the circle crosses its
  edges.
- Blocks come from a first-in, first-out free list of 49 blocks created at start-up.

A separate sprite animator plays frame sequences, with repeat, stop and pause.

The model is functional. A `World` record holds the level, the free list, the bound blocks and
the mask. Each operation is a pure function on these values, and the lemmas relate them.

| file | module | source |
|---|---|---|
| `geometry.dfy` | `Wrappers`, `Geometry` | points, cells, `WorldToCell`, `Mathf.Ceil`, the scan rectangle |
| `levels.dfy` | `Levels` | `Level.cs` |
| `block_pool.dfy` | `BlockPool` | the free list in `Kaleidoscope.cs` |
| `partial_block.dfy` | `PartialBlocks` | `PartialBlock.cs` |
| `kaleidoscope.dfy` | `Kaleidoscope` | the scan in `Kaleidoscope.cs`, and one frame |
| `frame_invariant.dfy` | `FrameInvariant`, `MixedOrder` | the invariant across frames, and the finding below |
| `sprite_animator.dfy` | `SpriteAnimation` | `SpriteAnimator.cs` |

Modelling choices:

- Distances are compared as squares. `Vector2.Distance(p, c) <= r` becomes `WithinRadius`,
  which is `r >= 0 && |p - c|² <= r²`; this is exact, including for a negative radius. The
  strict test of `IsInKaleidoscope` becomes `r > 0 && |p - c|² < r²`.
- `WorldToCell` is the floor on a unit grid, so a cell's centre `(x + 0.5, y + 0.5)` maps back to
  `(x, y)`.
- The points where the circle crosses a tile edge are symbolic (`Crossing(side)`). Corner points
  carry their corner and their offset from the cell centre.
- Blocks are named by their creation index (`BlockId`).
- Tile layers are maps from cells to tiles; an absent key is a null tile.
- An exception stops a frame's scan but keeps what was already written, as it does in the
  engine. `Stepped` carries the state reached and the fault. There are two faults: the free list
  is empty, or a color flag lies outside the 31 x 31 array.
- `WellFormed(w)` says that the flag array has its fixed shape and that every color block lies
  inside it. The frame functions require it, because releasing a color block writes its flag.
  `FrameInvariant.StartHolds` and `FrameInvariant.TickHolds` show that every reachable world
  satisfies it.
- The frame invariant `FrameInvariant.Inv` says four things. Every created block is free or
  bound, exactly once. The level records each bound block: a null mixed tile for a grey block,
  a set flag for a color block. Every set flag has its color block bound. Every start-area
  collider tile is in the mixed layer or has a grey block bound that will restore it. The
  invariant's *core*, `FrameInvariant.CoreInv`, is the first three.
- One frame is `Tick`. The mask moves, the scan runs, and then each bound block updates in the
  order it was bound. The scan, and so the frame, takes an `Order` for its grey-layer step:
  `AsWritten` is the program's step, `Corrected` the repaired one from the Findings. A frame of
  the program is `Tick(w, pos, AsWritten)`. A block bound during the scan is updated once by the
  scan and once more by its own update in the same frame. `PartialBlocks.UpdateTwice` shows that the second update
  changes nothing.
- Animator time is a `real`. `Update` takes the frame time `dt` as a parameter.

Three behaviours of the program that the model keeps as they are:

- The grey-layer step clears the mixed tile before it takes a block, so an exhausted pool
  throws with the tile already gone (see Findings).
- Free blocks are handed out from the head of a FIFO queue and returned to its tail.
  `BlockPool.FirstInFirstOut` states that order.
- The radius is set once, to half the diameter. Only the rendered scale is animated.

## Model

| member | source | states |
|---|---|---|
| Geometry.WorldToCell | Assets/_Scripts/Kaleidoscope.cs:77 | the cell of a point is the unit cell that contains it (floor on both axes) |
| Geometry.CellCenter | Assets/_Scripts/Kaleidoscope.cs:170 | the centre `(x + 0.5, y + 0.5)` of a cell maps back to that cell, which is how a bound block learns its cell |
| Geometry.Ceil | Assets/_Scripts/Kaleidoscope.cs:79 | `Mathf.Ceil` gives the least integer not below the radius |
| Geometry.RectContents | Assets/_Scripts/Kaleidoscope.cs:79-80 | the nested x/y loop visits exactly the cells of the rectangle, each once, (width x height) of them |
| Levels.CheckForColorSquare | Assets/_Scripts/Level.cs:68-70 | answers the flag of a cell inside the 31 x 31 array (offset 15) and throws for any cell outside it |
| Levels.SetColorSquare | Assets/_Scripts/Level.cs:73-75 | a later check of the same cell answers the stored value, every other cell answers as before, no layer changes, and a cell outside the array throws |
| Levels.PlaceColliderTile | Assets/_Scripts/Level.cs:61-65 | the mixed layer at the cell becomes the grey layer's tile there (null included); every other cell, layer and flag is unchanged |
| Levels.GenerateCell | Assets/_Scripts/Level.cs:38-55 | one cell of the start-up copy: its flag is cleared and its mixed tile is the grey tile exactly when that tile has a collider; nothing else changes |
| Levels.GenerateOver | Assets/_Scripts/Level.cs:36-57 | over a list of cells, every listed cell is copied and cleared as above and unlisted cells keep their tiles and flags |
| Levels.GenerateMixedColliders | Assets/_Scripts/Level.cs:35-58 | over [-12, 12] x [-12, 12] every flag is cleared and the mixed layer holds exactly the collider-bearing grey tiles; outside, the layer and flags are untouched |
| Levels.StartLevel | Assets/_Scripts/Level.cs:19-25 | a loaded level keeps its grey and color layers and has no flag set anywhere |
| Levels.RestoreRoundTrip | Assets/_Scripts/Level.cs:35-65 | clearing a start-area cell that the copy filled and then placing its collider tile back restores the mixed layer exactly |
| BlockPool.PushCreated | Assets/_Scripts/Kaleidoscope.cs:237-241 | pushing each new block at the front gives a list of the right length with no repeats, naming only created blocks |
| BlockPool.PushCreatedAll | Assets/_Scripts/Kaleidoscope.cs:237-241 | the pushed list holds every created block once (as a multiset) |
| BlockPool.FillInactiveList | Assets/_Scripts/Kaleidoscope.cs:224-242 | the free list holds all 49 blocks once each, independent of the diameter |
| BlockPool.SetBlockActive | Assets/_Scripts/Kaleidoscope.cs:166-168 | the head of the free list is handed out and the rest keeps its order |
| BlockPool.SetBlockInactive | Assets/_Scripts/Kaleidoscope.cs:159-163 | a returned block joins the tail, behind every block already free |
| BlockPool.FirstInFirstOut | Assets/_Scripts/Kaleidoscope.cs:159-168 | returning a block does not change which block is handed out next unless the list was empty: the free list is a FIFO queue |
| PartialBlocks.SetEdges | Assets/_Scripts/PartialBlock.cs:162-167 | top, bottom, left and right are the first four edges, in that order |
| PartialBlocks.CountCorners | Assets/_Scripts/PartialBlock.cs:71-87 | each corner flag is "corner within the radius (inclusive)", the count is the number of flags set, at most 4, and it is 0 or 4 exactly when none or all are set |
| PartialBlocks.PointsFrom | Assets/_Scripts/PartialBlock.cs:91-134 | the slots from a position on are emitted in clockwise order, each exactly when it is wanted, each at its own offset |
| PartialBlocks.GetPoints | Assets/_Scripts/PartialBlock.cs:91-134 | the outline runs clockwise from the top-left; a corner is in it iff its flag equals `reversed`, and an edge's crossing iff its two corners' flags differ |
| PartialBlocks.PointsCount | Assets/_Scripts/PartialBlock.cs:91-134 | the outline has one point per kept corner plus one per crossed edge |
| PartialBlocks.CrossingsEven | Assets/_Scripts/PartialBlock.cs:101-131 | the circle crosses 0, 2 or 4 edges |
| PartialBlocks.PointsReached | Assets/_Scripts/PartialBlock.cs:37-56 | whenever the outline is built, it has 3 to 6 points, so its first point exists when the collider is closed |
| PartialBlocks.FullColorSquare | Assets/_Scripts/PartialBlock.cs:96-127 | a color block wholly inside the mask gets exactly (left, top), (right, top), (right, bottom), (left, bottom) |
| PartialBlocks.GenerateCollider | Assets/_Scripts/PartialBlock.cs:54-67 | the collider is the outline followed by its first point again: one longer, closed, same prefix |
| PartialBlocks.UpdateCollider | Assets/_Scripts/PartialBlock.cs:37-50 | released iff no corner is within the radius; collider disabled (outline kept) iff a grey block has all four; otherwise enabled with a closed outline of 4 to 7 points whose prefix is the clockwise outline; identity, cell, bounds and polarity never change |
| PartialBlocks.UpdateTwice | Assets/_Scripts/PartialBlock.cs:37-50 | updating a kept block again against the same mask gives the same result |
| PartialBlocks.Disable | Assets/_Scripts/PartialBlock.cs:138-147 | a released color block clears its flag and nothing else; a grey block puts its grey tile back into the mixed layer and nothing else; either returns to the tail of the free list |
| Kaleidoscope.MaxOf | Assets/_Scripts/Kaleidoscope.cs:149 | `Mathf.Max` answers an element not below any other |
| Kaleidoscope.MinOf | Assets/_Scripts/Kaleidoscope.cs:150 | `Mathf.Min` answers an element not above any other |
| Kaleidoscope.GetTileEdges | Assets/_Scripts/Kaleidoscope.cs:137-155 | a grid tile has edges (0.5, -0.5, -0.5, 0.5); any other tile has the bounding box of its shape's first four vertices, attained by those vertices, never inverted, and holding all four |
| Kaleidoscope.IsWithinRange | Assets/_Scripts/Kaleidoscope.cs:125-134 | true iff at least one of the tile's four corners lies within the radius (inclusive) |
| Kaleidoscope.IsInKaleidoscope | Assets/_Scripts/Kaleidoscope.cs:178-182 | a point is inside exactly when it passes the inclusive radius test and does not lie on the circle itself; a mask whose radius is zero or negative contains no point |
| Kaleidoscope.ScanCells | Assets/_Scripts/Kaleidoscope.cs:77-80 | the scanned cells are exactly those within the rounded-up radius of the mask's cell on both axes |
| Kaleidoscope.Bind | Assets/_Scripts/Kaleidoscope.cs:166-175 | the head of the free list is bound to the cell with the tile's edges and polarity; nothing else in the world changes |
| Kaleidoscope.FreshBlockStays | Assets/_Scripts/Kaleidoscope.cs:97-102 | a block bound because its tile is in range is never released by the update the scan gives it |
| Kaleidoscope.MixedBranch | Assets/_Scripts/Kaleidoscope.cs:94-104 | corrected grey-layer step: a mixed tile in range gets exactly one block (`reversed` false, whatever its collider type) and its mixed cell becomes null; an empty free list throws with nothing changed; a tile out of range or absent changes nothing |
| Kaleidoscope.MixedBranchAsWritten | Assets/_Scripts/Kaleidoscope.cs:94-104 | the program's grey-layer step: with a free block left it does exactly what the corrected step does; with the list empty and the tile in range it throws with the mixed tile cleared and nothing else changed; an absent or out-of-range tile changes nothing |
| Kaleidoscope.ColorBranch | Assets/_Scripts/Kaleidoscope.cs:107-119 | a block (`reversed` true) is taken and the flag set exactly for a color tile in range, with a collider, whose flag was clear; a flag outside the array throws before any change; an empty free list throws with nothing changed |
| Kaleidoscope.ScanCell | Assets/_Scripts/Kaleidoscope.cs:81-119 | one cell with the given grey-layer step (`AsWritten` for the program): a cell whose mixed and color tiles are both grid colliders is skipped with no change; otherwise only the mixed layer and the flags change and new blocks come from the head of the free list, bound in list order behind the earlier ones |
| Kaleidoscope.GreyStep | Assets/_Scripts/Kaleidoscope.cs:94-104 | either grey-layer step: an absent or out-of-range mixed tile changes nothing; an empty free list throws; without a throw the tile is out of the mixed layer and the first new block stands at the cell, not reversed, with the tile's edges |
| Kaleidoscope.ScanCellLocal | Assets/_Scripts/Kaleidoscope.cs:81-119 | one cell's scan changes the mixed layer only by taking out that cell's tile, and the flags only by setting that cell's flag |
| Kaleidoscope.ScanCellGrey | Assets/_Scripts/Kaleidoscope.cs:94-104 | in one cell's scan, an in-range mixed tile is taken out with a grey block bound for it at the cell, with its edges; with the free list empty the scan throws |
| Kaleidoscope.ScanCellColor | Assets/_Scripts/Kaleidoscope.cs:107-119 | in one cell's scan, a color tile in range with a collider throws when its cell is outside the flag array; otherwise, without a throw, its flag is set, and if it was clear the newest block stands at the cell, reversed, with the tile's edges |
| Kaleidoscope.ScanCellCovers | Assets/_Scripts/Kaleidoscope.cs:81-119 | a fault-free scan of one cell deals with both its tiles: the in-range mixed tile is out of the layer with a grey block bound for it that its update keeps, and the wanted color tile is flagged, with a kept color block when the flag was clear |
| Kaleidoscope.ScanCellElsewhere | Assets/_Scripts/Kaleidoscope.cs:81-119 | one cell's scan leaves every other cell's mixed tile and flag, the color layer and the mask as they were |
| Kaleidoscope.ScanCellIdle | Assets/_Scripts/Kaleidoscope.cs:81-119 | a cell whose mixed tile is out of reach and whose color tile is not wanted is scanned with no change at all |
| Kaleidoscope.ScanCellBinds | Assets/_Scripts/Kaleidoscope.cs:94-119 | the converse of the two steps: one cell's scan binds blocks only at that cell, a grey one only for a mixed tile in reach and a color one only for a color tile in range with a collider; a mixed tile out of reach stays in the layer, and an unwanted color tile leaves every flag as it was |
| Kaleidoscope.ScanFrom | Assets/_Scripts/Kaleidoscope.cs:79-121 | the scan over a list of cells, stopping at the first exception, with the given grey-layer step: no cells change nothing; otherwise the mask and the grey and color layers stay, and the bound list only grows by free-list heads taken in order |
| Kaleidoscope.ScanFromNarrows | Assets/_Scripts/Kaleidoscope.cs:79-121 | the scan over a list of cells only takes tiles out of the mixed layer and only sets flags, even when it stops at an exception |
| Kaleidoscope.ScanFromCovers | Assets/_Scripts/Kaleidoscope.cs:79-121 | after a fault-free scan over a list of cells, every listed cell whose two tiles are not both grid colliders has been dealt with on both layers |
| Kaleidoscope.ScanFromSpares | Assets/_Scripts/Kaleidoscope.cs:79-121 | the converse of the coverage: a cell not in the list, or one whose tile on a layer is out of reach or unwanted, keeps that layer's mixed tile or flag and gets no block of that layer, even when the scan stops at an exception |
| Kaleidoscope.UpdateTileColliders | Assets/_Scripts/Kaleidoscope.cs:70-122 | the scan of every cell around the mask with the given grey-layer step keeps the world well formed and only binds free-list heads, in order, changing the mixed layer and flags alone |
| Kaleidoscope.ScanCovers | Assets/_Scripts/Kaleidoscope.cs:70-122 | the scan around the mask only takes out mixed tiles and sets flags, and without an exception every scanned cell whose tiles are not both grid colliders has its in-range mixed tile replaced by a kept grey block and its wanted color tile flagged, with a kept color block if the flag was clear |
| Kaleidoscope.ScanSpares | Assets/_Scripts/Kaleidoscope.cs:70-122 | around the mask, a cell outside the scanned square, or one whose tile on a layer is out of reach or unwanted, keeps that layer's mixed tile or flag and gets no block of that layer |
| Kaleidoscope.UpdateEach | Assets/_Scripts/PartialBlock.cs:31-50 | every bound block updates once in binding order: the blocks left bound are exactly the updates of those keeping a corner within the mask, in binding order; the ids of the others join the free list's tail in binding order; the grey and color layers do not change |
| Kaleidoscope.KeptOfMembers | Assets/_Scripts/PartialBlock.cs:37-50 | a block is left bound after the updates exactly when it is the update of a bound block with a corner within the mask |
| Kaleidoscope.ReleaseEffect | Assets/_Scripts/PartialBlock.cs:138-147 | after the updates, every released block's cell is undone: a color block's flag is clear, a grey block's cell holds the grey tile again in the mixed layer |
| Kaleidoscope.UndoneStays | Assets/_Scripts/PartialBlock.cs:138-147 | later updates never redo what a release undid |
| Kaleidoscope.UntouchedCell | Assets/_Scripts/PartialBlock.cs:31-50 | a cell where no bound block is released keeps its mixed tile and its flag through the updates |
| Kaleidoscope.HasBlockKept | Assets/_Scripts/PartialBlock.cs:37-50 | a bound block with a corner within the mask is still bound, updated, with the same cell and polarity, after the updates |
| Kaleidoscope.UpdateBlocks | Assets/_Scripts/PartialBlock.cs:31-33 | the blocks' updates over the world keep it well formed and keep the mask and the grey and color layers; the bound blocks become the kept updates in binding order and the released ids join the free list's tail |
| Kaleidoscope.Tick | Assets/_Scripts/Kaleidoscope.cs:33-47 | one frame with the given grey-layer step (`AsWritten` for the program): the mask moves to the new position, the grey and color layers do not change, and free plus bound blocks keep their number |
| Kaleidoscope.TickCovers | Assets/_Scripts/Kaleidoscope.cs:33-47 | after a frame without an exception, every scanned cell around the new position whose tiles are not both grid colliders has a grey block bound for its in-range mixed tile, and a color block bound for its wanted color tile whose flag was clear |
| Kaleidoscope.Start | Assets/_Scripts/Kaleidoscope.cs:22-28 | at start-up all 49 blocks are free, none is bound, and the radius is half the diameter |
| FrameInvariant.StartHolds | Assets/_Scripts/Kaleidoscope.cs:22-28 | the invariant holds at start-up: every block free, no flag set, every start-area collider tile in the mixed layer |
| FrameInvariant.AccountedTake | Assets/_Scripts/Kaleidoscope.cs:167-168 | handing out the head keeps every block either free or bound, once |
| FrameInvariant.AccountedGive | Assets/_Scripts/Kaleidoscope.cs:162 | returning a bound block to the tail keeps every block either free or bound, once |
| FrameInvariant.AgreesClearMixed | Assets/_Scripts/Kaleidoscope.cs:98-99 | clearing a present mixed tile and binding a grey block to it keeps the level consistent with the bound blocks, and keeps every start-area collider tile restorable if it was |
| FrameInvariant.ConsistentDropMixed | Assets/_Scripts/Kaleidoscope.cs:98-99 | clearing a mixed tile without binding a block, as the program does before it throws, still keeps the level consistent with the bound blocks |
| FrameInvariant.AgreesSetFlag | Assets/_Scripts/Kaleidoscope.cs:112-115 | setting a clear flag and binding a color block to it keeps the level consistent with the bound blocks, and restorability if it held |
| FrameInvariant.MixedBranchHolds | Assets/_Scripts/Kaleidoscope.cs:94-104 | the corrected grey-layer step keeps the invariant's core, and the whole invariant when it held |
| FrameInvariant.MixedBranchAsWrittenHolds | Assets/_Scripts/Kaleidoscope.cs:94-104 | the program's grey-layer step keeps the invariant's core; it keeps the whole invariant unless it throws for an empty free list |
| FrameInvariant.ColorBranchHolds | Assets/_Scripts/Kaleidoscope.cs:107-119 | the color-layer step keeps the invariant's core, and the whole invariant when it held |
| FrameInvariant.ScanCellHolds | Assets/_Scripts/Kaleidoscope.cs:81-119 | one cell of the scan, with either grey-layer step, keeps the core even when it throws; the whole invariant survives except when the program's step throws for an empty free list |
| FrameInvariant.ScanFromHolds | Assets/_Scripts/Kaleidoscope.cs:70-122 | the whole scan, with either grey-layer step, keeps the core even when it stops at an exception; the whole invariant survives except when the program's scan ends on an empty free list |
| FrameInvariant.AgreesRelease | Assets/_Scripts/PartialBlock.cs:138-146 | a released block's flag is cleared or its tile restored, the level stays consistent with the blocks still bound, and restorability survives if it held |
| FrameInvariant.ReleaseHolds | Assets/_Scripts/PartialBlock.cs:138-147 | releasing any bound block keeps the core, and the whole invariant when it held; a released color block's flag is inside the array |
| FrameInvariant.UpdateInPlace | Assets/_Scripts/PartialBlock.cs:37-50 | a block that stays bound keeps its cell, polarity and identity, so the core and the whole invariant are as they were |
| FrameInvariant.UpdateEachCore | Assets/_Scripts/PartialBlock.cs:31-50 | the bound blocks' own updates, in order, keep every id accounted for, the kept blocks unique and claimed by their cells, and the color flags in range |
| FrameInvariant.UpdateEachFull | Assets/_Scripts/PartialBlock.cs:31-50 | when every bound block could also restore its tile, so can every block still bound after the updates, and each released block's tile is back in the level |
| FrameInvariant.UpdateEachHolds | Assets/_Scripts/PartialBlock.cs:31-50 | the bound blocks' own updates, in order, keep the core, and the whole invariant when it held |
| FrameInvariant.UpdateBlocksHolds | Assets/_Scripts/PartialBlock.cs:31-33 | the blocks' updates over a whole world keep the core, and the whole invariant when it held |
| FrameInvariant.TickHolds | Assets/_Scripts/Kaleidoscope.cs:33-47 | every frame of the program keeps the core (every block free or bound once, the level consistent with the bound blocks), whether or not its scan threw; it keeps the whole invariant unless its scan ran out of free blocks; a corrected frame always keeps the whole invariant |
| FrameInvariant.CoreWellFormed | Assets/_Scripts/PartialBlock.cs:139-140 | under the invariant's core every color block's flag lies inside the array, so releasing it never throws |
| FrameInvariant.Conservation | Assets/_Scripts/Kaleidoscope.cs:159-175 | under the core, free plus bound blocks always number 49, and no cell has two bound blocks of the same polarity |
| MixedOrder.AsWrittenLosesTile | Assets/_Scripts/Kaleidoscope.cs:98-99 | with every block bound, the step as written throws with the tile cleared and no block to restore it, breaking the invariant |
| MixedOrder.CorrectedKeepsTile | Assets/_Scripts/Kaleidoscope.cs:98-99 | on the same input the corrected step throws with the world unchanged and the invariant intact |
| MixedOrder.ScanCellOrders | Assets/_Scripts/Kaleidoscope.cs:94-104 | on one cell the program's and the corrected step give the same result, except with an empty free list, where both throw and the program's world has also lost the cell's mixed tile |
| MixedOrder.ScanFromOrders | Assets/_Scripts/Kaleidoscope.cs:79-121 | the program's scan and the corrected scan give the same result, except that both throw for an empty free list and the program's world has also lost the mixed tile of one scanned cell |
| MixedOrder.UpdateEachIgnoresLevel | Assets/_Scripts/PartialBlock.cs:37-50 | which blocks stay bound and what the free list becomes after the blocks' updates does not depend on the level |
| MixedOrder.TickOrders | Assets/_Scripts/Kaleidoscope.cs:33-47 | a frame of the program and a corrected frame raise the same exception and leave the same free list and bound blocks; without an empty-list exception they leave the same world |
| SpriteAnimation.Init | Assets/_Scripts/SpriteAnimator.cs:28-31 | a new animator is stopped, unpaused, with no sequence and no sprite shown |
| SpriteAnimation.SetSprite | Assets/_Scripts/SpriteAnimator.cs:180-190 | both renderers show the sprite iff a sequence was ever started and the index is in the sheet; otherwise nothing changes |
| SpriteAnimation.StartAnimation | Assets/_Scripts/SpriteAnimator.cs:63-85 | ignored for a null sequence or when the same sequence, duration and flip are already running (`repeat` not compared); otherwise restarts at frame 0 with time 0 and shows the first frame; pause is left as it was; an empty sequence throws with the counters already reset |
| SpriteAnimation.StopAnimation | Assets/_Scripts/SpriteAnimator.cs:88-95 | stops, unpauses, and zeroes the frame duration, frame time and pause duration; keeps the frame index, sequence and sprite |
| SpriteAnimation.StopAnimationWith | Assets/_Scripts/SpriteAnimator.cs:98-102 | stops, then shows the given sprite when the sheet has it |
| SpriteAnimation.StopAnimationOn | Assets/_Scripts/SpriteAnimator.cs:105-124 | a stopped animator is left alone; a running one stops showing its first or last frame |
| SpriteAnimation.PauseAnimation | Assets/_Scripts/SpriteAnimator.cs:127-144 | a running animation pauses for the given duration (0: indefinitely); a stopped one is left alone |
| SpriteAnimation.UnpauseAnimation | Assets/_Scripts/SpriteAnimator.cs:147-150 | clears the pause flag and duration and nothing else |
| SpriteAnimation.SetFrameDuration | Assets/_Scripts/SpriteAnimator.cs:153-155 | changes the frame duration and nothing else |
| SpriteAnimation.IncrementFrame | Assets/_Scripts/SpriteAnimator.cs:159-176 | the next frame, wrapping to 0 when repeating, with time reset and its sprite shown; past the last frame a single-shot animation stops with the sprite unchanged and the index one past the end; a running animation stays on a frame of its sequence |
| SpriteAnimation.CountDown | Assets/_Scripts/SpriteAnimator.cs:39-45 | a timed pause runs down by the frame time and is lifted once it reaches zero; a zero or negative duration never runs down |
| SpriteAnimation.Update | Assets/_Scripts/SpriteAnimator.cs:34-56 | a stopped animator is unchanged, and a running animation stays on a frame of its sequence without throwing |
| SpriteAnimation.AtMostOneStep | Assets/_Scripts/SpriteAnimator.cs:34-56 | one update keeps the frame and sprite, or advances exactly one frame (wrapping or stopping) |
| SpriteAnimation.PausedHoldsFrame | Assets/_Scripts/SpriteAnimator.cs:39-49 | while the pause lasts, the frame, sprite and frame time do not change |
| SpriteAnimation.PauseEndsAndPlays | Assets/_Scripts/SpriteAnimator.cs:39-56 | the update in which a timed pause ends already counts its time toward the current frame |
| SpriteAnimation.StoppedIsInert | Assets/_Scripts/SpriteAnimator.cs:34-37 | after a stop, updates, pauses and stopping on a frame change nothing |
| SpriteAnimation.RestartIgnored | Assets/_Scripts/SpriteAnimator.cs:64-66 | starting the running animation again is ignored even with a different `repeat`, so it is not held on frame 0 |
| SpriteAnimation.RepeatCycles | Assets/_Scripts/SpriteAnimator.cs:159-176 | a repeating animation walks one frame per advance, wraps once past the end, and returns to its starting frame after a full round |
| SpriteAnimation.PlaysOnceThenStops | Assets/_Scripts/SpriteAnimator.cs:159-176 | a single-shot animation plays each remaining frame in order and stops on the advance past its last frame |

## Left out

- `ProcessInput` (Kaleidoscope.cs:51-66): the mouse raycast, the camera and the freeze key are input plumbing. The mask position is a parameter of `Tick`.
- The mask's scale animation (Kaleidoscope.cs:40-42) changes only the rendered size. The radius is set once at start-up.
- The `delay` countdown (Kaleidoscope.cs:14, 34-38) never runs, because `delay` starts at 0 and is never set.
- The `level == null` early return (Kaleidoscope.cs:73-75) is left out: the model's world always has a level.
- `Cursor.visible` and the camera aspect set-up (Kaleidoscope.cs:29, Level.cs:27-31) are rendering settings.
- The exact crossing coordinates from `GetPointOnX` and `GetPointOnY` (Kaleidoscope.cs:186-220) need a square root and float arithmetic. Crossings are symbolic vertices.
- Floating-point rounding in general is left out. Coordinates, radii and times are `real`.
- Kaleidoscope.IsInKaleidoscope: the program measures from the object's position, with z set to 0, to the mask's world position, z included. The model compares 2D positions, so it assumes the mask lies at z = 0. The function has no caller in the modelled core.
- `DrawLines`, `Instantiate`, `Destroy`, `SetParent` and `SetActive` are scene bookkeeping. Blocks are indices, and a sprite is an index.
- Kaleidoscope.GetTileEdges: only the first four vertices of a physics shape are modelled. A shape with fewer than four vertices, which would throw, is not.
- SpriteAnimation.SetSprite: the color sprite array is assumed to be at least as long as the grey one. The program checks only the grey array's length before indexing both.
- SpriteAnimation.StartAnimation: arrays are compared by a stored identity, `Clip.ref`. Mutating an array's contents in place is not modelled.
- Unity calls every `Update` once per frame in an unspecified order. `Tick` fixes one order: the scan, then the blocks in the order they were bound.
- `Ball.cs` (keyboard-driven physics) and `Game.cs` (the scene-wide singleton) are not part of this model. The singleton becomes the explicit `World` record.

## Findings

| source | as written | input that shows it | evidently intended | confidence | as-written member | corrected member |
|---|---|---|---|---|---|---|
| Assets/_Scripts/Kaleidoscope.cs:98-99 | the grey-layer step clears the mixed tile, then takes a block from the free list; with the list empty, the take throws after the clear | a frame in which all 49 blocks are bound and the mask reaches one more collider tile of the mixed layer (a mask reaching more than 49 tiles) | an exhausted pool leaves the tile in place: either take the block first or check the list before clearing, so that every cleared tile has a block that will restore it | not executed; proved about the model, which throws where the program throws | Kaleidoscope.MixedBranchAsWritten, MixedOrder.AsWrittenLosesTile | Kaleidoscope.MixedBranch, MixedOrder.CorrectedKeepsTile |

The program's frames (`Tick` with `AsWritten`) use the step as written. `FrameInvariant.TickHolds`
proves that they keep the invariant without restorability, and the whole invariant until the
free list runs out. Frames with `Corrected` use the corrected step and always keep the whole
invariant. `MixedOrder.TickOrders` shows that the two kinds of frame differ only in a frame
whose scan throws for an empty free list.

=== FILE: block_pool.dfy ===
/**
 The free list of partial blocks. Blocks are created once, at start-up, and are named by the
 order of their creation; the free list is a FIFO queue of those names.
 */
module BlockPool {

  /** A partial block, named by its creation index. */
  type BlockId = nat

  /** The number of blocks created at start-up, whatever the mask diameter. */
  const Capacity: nat := 49

  predicate Distinct(s: seq<BlockId>)
  {
    forall i, j :: 0 <= i < j < |s| ==> s[i] != s[j]
  }

  /** The free list after creating `n` blocks and pushing each new one at the front. */
  function PushCreated(n: nat): (r: seq<BlockId>)
    ensures |r| == n && Distinct(r)
    ensures forall i :: 0 <= i < |r| ==> r[i] < n
  {
    if n == 0 then [] else [n - 1] + PushCreated(n - 1)
  }

  /** Every block created at start-up, once each. */
  function Stock(): seq<BlockId>
  {
    seq(Capacity, i => i)
  }

  lemma {:induction false} PushCreatedAll(n: nat)
    ensures multiset(PushCreated(n)) == multiset(seq(n, i => i))
  {
    if n > 0 {
      PushCreatedAll(n - 1);
      assert seq(n, i => i) == seq(n - 1, i => i) + [n - 1];
    }
  }

  /** `FillInactiveList`: the free list holds every created block exactly once, `Capacity` of
      them, independent of the diameter. */
  function FillInactiveList(diameter: real): (r: seq<BlockId>)
    ensures |r| == Capacity && Distinct(r)
    ensures forall i :: 0 <= i < |r| ==> r[i] < Capacity
    ensures multiset(r) == multiset(Stock())
  {
    PushCreatedAll(Capacity);
    PushCreated(Capacity)
  }

  /** `SetBlockActive`'s list half: the head leaves the list and the rest keeps its order. An
      empty list throws in the program; callers check first. */
  function SetBlockActive(free: seq<BlockId>): (r: (BlockId, seq<BlockId>))
    requires |free| > 0
    ensures [r.0] + r.1 == free
  {
    (free[0], free[1..])
  }

  /** `SetBlockInactive`'s list half: the block joins the tail, behind every block already free. */
  function SetBlockInactive(free: seq<BlockId>, id: BlockId): (r: seq<BlockId>)
    ensures |r| == |free| + 1 && r[|free|] == id && r[..|free|] == free
  {
    free + [id]
  }

  /** The free list is first in, first out: returning a block to a non-empty list does not change
      which block is handed out next, and the returned block is handed out only after all the
      others. */
  lemma {:induction false} FirstInFirstOut(free: seq<BlockId>, id: BlockId)
    ensures |free| > 0 ==> SetBlockActive(SetBlockInactive(free, id)).0 == free[0]
    ensures |free| > 0 ==>
      SetBlockActive(SetBlockInactive(free, id)).1 == SetBlockInactive(SetBlockActive(free).1, id)
    ensures |free| == 0 ==> SetBlockActive(SetBlockInactive(free, id)) == (id, [])
  {
    if |free| > 0 {
      var (h, rest) := SetBlockActive(free);
      assert free + [id] == [h] + (rest + [id]);
    }
  }
}

=== FILE: frame_invariant.dfy ===
/**
 The invariant that ties the free list, the bound blocks and the level together across frames:

 - every created block is either free or bound, never both and never twice;
 - a grey-layer block (`reversed` false) is bound to a cell only while that cell's mixed tile is
   null, and a color block only while that cell's color-square flag is set;
 - a flag is set only while a color block is bound to its cell;
 - so no cell has two blocks of the same polarity;
 - a start-area cell whose grey tile has a collider either has its mixed tile or has a grey-layer
   block that will put it back.

 The first four items (`CoreInv`) hold after every frame of the program. The last one also holds
 after every frame whose scan did not run out of free blocks, and after every frame at all when the
 grey-layer step takes its block before clearing the tile (`Corrected`).
 */
module FrameInvariant {
  import opened Wrappers
  import opened Geometry
  import opened Levels
  import opened BlockPool
  import opened PartialBlocks
  import opened Kaleidoscope

  /** What a bound block stands in for: a cell and a polarity. */
  datatype Key = Key(cell: Cell, reversed: bool)

  function KeyOf(b: Block): Key
  {
    Key(b.cell, b.reversed)
  }

  function Keys(bs: seq<Block>): (r: seq<Key>)
    ensures |r| == |bs| && forall i :: 0 <= i < |bs| ==> r[i] == KeyOf(bs[i])
  {
    seq(|bs|, i requires 0 <= i < |bs| => KeyOf(bs[i]))
  }

  function Ids(bs: seq<Block>): (r: seq<BlockId>)
    ensures |r| == |bs| && forall i :: 0 <= i < |bs| ==> r[i] == bs[i].id
  {
    seq(|bs|, i requires 0 <= i < |bs| => bs[i].id)
  }

  lemma Concat(a: seq<Block>, b: seq<Block>)
    ensures Keys(a + b) == Keys(a) + Keys(b) && Ids(a + b) == Ids(a) + Ids(b)
  {
  }

  lemma Single(b: Block)
    ensures Keys([b]) == [KeyOf(b)] && Ids([b]) == [b.id]
  {
  }

  lemma SplitHead(done: seq<Block>, pending: seq<Block>)
    requires |pending| > 0
    ensures done + pending == done + [pending[0]] + pending[1..]
  {
    assert pending == [pending[0]] + pending[1..];
  }

  predicate Unique(ks: seq<Key>)
  {
    forall i, j :: 0 <= i < j < |ks| ==> ks[i] != ks[j]
  }

  /** Taking one key out of a list without repeats leaves a list without repeats that no longer
      holds it; any other key of the list is still there. */
  lemma UniqueSplit(a: seq<Key>, k: Key, b: seq<Key>)
    requires Unique(a + [k] + b)
    ensures Unique(a + b) && k !in a + b
    ensures forall x :: x in a + [k] + b && x != k ==> x in a + b
  {
    var s := a + [k] + b;
    forall i | 0 <= i < |a + b| ensures (a + b)[i] == s[if i < |a| then i else i + 1] {
    }
    forall i | 0 <= i < |a + b| ensures (a + b)[i] != k {
      assert s[|a|] == k;
    }
  }

  /** The level records what a bound block stands in for: a null mixed tile for a grey-layer
      block, a set flag for a color block. */
  predicate Claimed(l: Level, k: Key)
    requires l.Valid()
  {
    if k.reversed then InGrid(k.cell) && Flag(l, k.cell) else k.cell !in l.mixed
  }

  predicate AllClaimed(l: Level, ks: seq<Key>)
    requires l.Valid()
  {
    forall k :: k in ks ==> Claimed(l, k)
  }

  /** A flag is set only while a color block stands in for its cell. */
  ghost predicate FlagsBound(l: Level, ks: seq<Key>)
    requires l.Valid()
  {
    forall c :: InGrid(c) && Flag(l, c) ==> Key(c, true) in ks
  }

  /** No start-area collider tile is lost: it is in the mixed layer, or a grey-layer block is bound
      to its cell and will put it back on release. */
  ghost predicate Restorable(l: Level, ks: seq<Key>)
  {
    forall c :: InStartArea(c) && BearsCollider(l, c) ==> c in l.mixed || Key(c, false) in ks
  }

  /** The level and the keys of the bound blocks agree, restorability aside. */
  ghost predicate Consistent(l: Level, ks: seq<Key>)
  {
    l.Valid() && Unique(ks) && AllClaimed(l, ks) && FlagsBound(l, ks)
  }

  /** The level-side half of the invariant, over the keys of the bound blocks. */
  ghost predicate Agrees(l: Level, ks: seq<Key>)
  {
    Consistent(l, ks) && Restorable(l, ks)
  }

  /** The pool-side half: free and bound blocks together are every created block once. */
  predicate Accounted(free: seq<BlockId>, ids: seq<BlockId>)
  {
    multiset(free + ids) == multiset(Stock())
  }

  ghost predicate CoreHolds(l: Level, free: seq<BlockId>, active: seq<Block>)
  {
    Accounted(free, Ids(active)) && Consistent(l, Keys(active))
  }

  ghost predicate Holds(l: Level, free: seq<BlockId>, active: seq<Block>)
  {
    CoreHolds(l, free, active) && Restorable(l, Keys(active))
  }

  ghost predicate CoreInv(w: World)
  {
    CoreHolds(w.level, w.free, w.active)
  }

  ghost predicate Inv(w: World)
  {
    Holds(w.level, w.free, w.active)
  }

  /** The invariant for a list with one more block, from its two halves. */
  lemma HoldsAppend(l: Level, f: seq<BlockId>, active: seq<Block>, b: Block)
    requires Accounted(f, Ids(active) + [b.id]) && Consistent(l, Keys(active) + [KeyOf(b)])
    ensures CoreHolds(l, f, active + [b])
    ensures Restorable(l, Keys(active) + [KeyOf(b)]) ==> Holds(l, f, active + [b])
  {
    Concat(active, [b]);
    Single(b);
  }

  lemma CoreWellFormed(w: World)
    requires CoreInv(w)
    ensures WellFormed(w)
  {
    forall b | b in w.active ensures b.reversed ==> InGrid(b.cell) {
      var i :| 0 <= i < |w.active| && w.active[i] == b;
      assert Keys(w.active)[i] == KeyOf(b);
      assert Claimed(w.level, KeyOf(b));
    }
  }

  /** Every block is either free or bound, so free plus bound is the number created, and no cell
      has two blocks of the same polarity. */
  lemma Conservation(w: World)
    requires CoreInv(w)
    ensures |w.free| + |w.active| == Capacity
    ensures forall i, j :: 0 <= i < j < |w.active| ==> KeyOf(w.active[i]) != KeyOf(w.active[j])
  {
    assert |multiset(w.free + Ids(w.active))| == |w.free + Ids(w.active)|;
    assert |multiset(Stock())| == |Stock()|;
    forall i, j | 0 <= i < j < |w.active| ensures KeyOf(w.active[i]) != KeyOf(w.active[j]) {
      assert Keys(w.active)[i] != Keys(w.active)[j];
    }
  }

  /** The invariant holds at start-up. */
  lemma StartHolds(grey: map<Cell, Tile>, color: map<Cell, Tile>, mixed: map<Cell, Tile>,
                   diameter: real, pos: Vec)
    ensures Inv(Start(grey, color, mixed, diameter, pos))
  {
    var w := Start(grey, color, mixed, diameter, pos);
    assert Keys(w.active) == [] && Ids(w.active) == [];
    assert w.free + Ids(w.active) == w.free;
    assert forall c :: InStartArea(c) && BearsCollider(w.level, c) ==> c in w.level.mixed;
  }

  /** Taking the head of the free list and binding it keeps every block accounted for. */
  lemma AccountedTake(free: seq<BlockId>, ids: seq<BlockId>)
    requires Accounted(free, ids) && |free| > 0
    ensures Accounted(free[1..], ids + [free[0]])
  {
    assert free + ids == [free[0]] + (free[1..] + ids);
    assert free[1..] + (ids + [free[0]]) == (free[1..] + ids) + [free[0]];
  }

  /** Returning a bound block to the tail of the free list keeps every block accounted for. */
  lemma AccountedGive(free: seq<BlockId>, a: seq<BlockId>, id: BlockId, b: seq<BlockId>)
    requires Accounted(free, a + [id] + b)
    ensures Accounted(free + [id], a + b)
  {
    assert free + (a + [id] + b) == (free + a) + [id] + b;
    assert free + [id] + (a + b) == free + [id] + a + b;
  }

  /** The grey-layer step's level change: clearing a present mixed tile and adding its key. */
  lemma AgreesClearMixed(l: Level, ks: seq<Key>, c: Cell)
    requires Consistent(l, ks) && c in l.mixed
    ensures Consistent(l.(mixed := l.mixed - {c}), ks + [Key(c, false)])
    ensures Restorable(l, ks) ==> Restorable(l.(mixed := l.mixed - {c}), ks + [Key(c, false)])
  {
    var l2 := l.(mixed := l.mixed - {c});
    var ks2 := ks + [Key(c, false)];
    assert Key(c, false) !in ks by {
      forall k | k in ks ensures k != Key(c, false) {
        assert Claimed(l, k);
      }
    }
    forall k | k in ks2 ensures Claimed(l2, k) {
      if k in ks {
        assert Claimed(l, k);
      }
    }
  }

  /** The program's grey-layer step when it throws: the mixed tile is cleared and no key is added.
      Everything but restorability survives, since a cleared tile claims nothing. */
  lemma ConsistentDropMixed(l: Level, ks: seq<Key>, c: Cell)
    requires Consistent(l, ks)
    ensures Consistent(l.(mixed := l.mixed - {c}), ks)
  {
    var l2 := l.(mixed := l.mixed - {c});
    forall k | k in ks ensures Claimed(l2, k) {
      assert Claimed(l, k);
    }
  }

  /** The color-layer step's level change: setting a clear flag and adding its key. */
  lemma AgreesSetFlag(l: Level, ks: seq<Key>, c: Cell)
    requires Consistent(l, ks) && InGrid(c) && !Flag(l, c)
    ensures Consistent(WithFlag(l, c, true), ks + [Key(c, true)])
    ensures Restorable(l, ks) ==> Restorable(WithFlag(l, c, true), ks + [Key(c, true)])
  {
    var l2 := WithFlag(l, c, true);
    var ks2 := ks + [Key(c, true)];
    assert Key(c, true) !in ks by {
      forall k | k in ks ensures k != Key(c, true) {
        assert Claimed(l, k);
      }
    }
    forall k | k in ks2 ensures Claimed(l2, k) {
      if k in ks {
        assert Claimed(l, k);
      }
    }
    forall d | InGrid(d) && Flag(l2, d) ensures Key(d, true) in ks2 {
      if d != c {
        assert Flag(l, d);
      }
    }
  }

  /** A step that binds the head of the free list as block `b`, with a level that agrees with the
      keys grown by `b`'s, keeps the invariant. */
  lemma BindHolds(w: World, r: World, b: Block)
    requires CoreInv(w) && |w.free| > 0 && b.id == w.free[0]
    requires r.active == w.active + [b] && r.free == w.free[1..]
    requires Consistent(r.level, Keys(w.active) + [KeyOf(b)])
    requires Restorable(w.level, Keys(w.active)) ==> Restorable(r.level, Keys(w.active) + [KeyOf(b)])
    ensures CoreInv(r) && (Inv(w) ==> Inv(r))
  {
    AccountedTake(w.free, Ids(w.active));
    HoldsAppend(r.level, r.free, w.active, b);
  }

  lemma BoundHeadHolds(w: World, r: World, c: Cell, edges: seq<real>, reversed: bool)
    requires CoreInv(w) && BoundHead(w, r, c, edges, reversed)
    requires Consistent(r.level, Keys(w.active) + [Key(c, reversed)])
    requires Restorable(w.level, Keys(w.active)) ==> Restorable(r.level, Keys(w.active) + [Key(c, reversed)])
    ensures CoreInv(r) && (Inv(w) ==> Inv(r))
  {
    var b := r.active[|w.active|];
    assert r.active == w.active + [b];
    BindHolds(w, r, b);
  }

  /** The corrected grey-layer step keeps the whole invariant. */
  lemma MixedBranchHolds(w: World, c: Cell)
    requires CoreInv(w)
    ensures WellFormed(w)
    ensures var r := MixedBranch(w, c, Lookup(w.level.mixed, c));
            CoreInv(r.world) && (Inv(w) ==> Inv(r.world))
  {
    CoreWellFormed(w);
    var mt := Lookup(w.level.mixed, c);
    var r := MixedBranch(w, c, mt);
    if InReach(w, c, mt) && |w.free| > 0 {
      AgreesClearMixed(w.level, Keys(w.active), c);
      BoundHeadHolds(w, r.world, c, GetTileEdges(mt.value), false);
    } else {
      SameHolds(w, r.world);
    }
  }

  /** The program's grey-layer step keeps the invariant except restorability, which only its
      pool-exhausted exception can break. */
  lemma MixedBranchAsWrittenHolds(w: World, c: Cell)
    requires CoreInv(w)
    ensures WellFormed(w)
    ensures var r := MixedBranchAsWritten(w, c, Lookup(w.level.mixed, c));
            CoreInv(r.world) && (Inv(w) ==> Inv(r.world) || r.fault == Some(PoolExhausted))
  {
    CoreWellFormed(w);
    var mt := Lookup(w.level.mixed, c);
    if InReach(w, c, mt) && |w.free| == 0 {
      ConsistentDropMixed(w.level, Keys(w.active), c);
    } else {
      MixedBranchHolds(w, c);
    }
  }

  /** A step that leaves the world as it was keeps the invariant. */
  lemma SameHolds(w: World, r: World)
    requires CoreInv(w) && r == w
    ensures CoreInv(r) && (Inv(w) ==> Inv(r))
  {
  }

  lemma ColorBranchHolds(w: World, c: Cell, ct: Option<Tile>)
    requires CoreInv(w)
    ensures WellFormed(w)
    ensures var r := ColorBranch(w, c, ct); CoreInv(r.world) && (Inv(w) ==> Inv(r.world))
  {
    CoreWellFormed(w);
    if ColorWanted(w, c, ct) && InGrid(c) && !Flag(w.level, c) && |w.free| > 0 {
      ColorBindHolds(w, c, ct);
    } else {
      SameHolds(w, ColorBranch(w, c, ct).world);
    }
  }

  /** The color-layer step that binds a block keeps the invariant. */
  lemma ColorBindHolds(w: World, c: Cell, ct: Option<Tile>)
    requires CoreInv(w) && WellFormed(w)
    requires ColorWanted(w, c, ct) && InGrid(c) && !Flag(w.level, c) && |w.free| > 0
    ensures var r := ColorBranch(w, c, ct); CoreInv(r.world) && (Inv(w) ==> Inv(r.world))
  {
    var r := ColorBranch(w, c, ct);
    AgreesSetFlag(w.level, Keys(w.active), c);
    BoundHeadHolds(w, r.world, c, GetTileEdges(ct.value), true);
  }

  /** One cell of the scan keeps the invariant but for restorability; that too survives unless the
      step as written ran out of free blocks. */
  lemma ScanCellHolds(w: World, c: Cell, order: Order)
    requires CoreInv(w)
    ensures WellFormed(w)
    ensures var r := ScanCell(w, c, order);
            && CoreInv(r.world)
            && (Inv(w) ==> Inv(r.world) || (order == AsWritten && r.fault == Some(PoolExhausted)))
  {
    CoreWellFormed(w);
    var mt := Lookup(w.level.mixed, c);
    var ct := Lookup(w.level.color, c);
    if !FullOverlap(mt, ct) {
      if order == AsWritten {
        MixedBranchAsWrittenHolds(w, c);
      } else {
        MixedBranchHolds(w, c);
      }
      var s := GreyStep(w, c, mt, order);
      if s.fault.None? {
        ColorBranchHolds(s.world, c, ct);
      }
    }
  }

  lemma {:induction false} ScanFromHolds(w: World, cells: seq<Cell>, order: Order)
    requires CoreInv(w)
    ensures WellFormed(w)
    ensures var r := ScanFrom(w, cells, order);
            && CoreInv(r.world)
            && (Inv(w) ==> Inv(r.world) || (order == AsWritten && r.fault == Some(PoolExhausted)))
    decreases |cells|
  {
    CoreWellFormed(w);
    if |cells| > 0 {
      ScanCellHolds(w, cells[0], order);
      var s := ScanCell(w, cells[0], order);
      if s.fault.None? {
        ScanFromHolds(s.world, cells[1..], order);
      }
    }
  }

  /** Releasing one bound block: the level forgets its key. */
  lemma AgreesRelease(l: Level, a: seq<Key>, b: Block, z: seq<Key>)
    requires Consistent(l, a + [KeyOf(b)] + z)
    ensures b.reversed ==> InGrid(b.cell)
    ensures Consistent(Disable(l, [], b).0, a + z)
    ensures Restorable(l, a + [KeyOf(b)] + z) ==> Restorable(Disable(l, [], b).0, a + z)
  {
    var all := a + [KeyOf(b)] + z;
    assert KeyOf(b) in all;
    assert Claimed(l, KeyOf(b));
    UniqueSplit(a, KeyOf(b), z);
    var l2 := Disable(l, [], b).0;
    forall k | k in a + z ensures Claimed(l2, k) {
      assert k in all;
      assert Claimed(l, k);
    }
    forall c | InGrid(c) && Flag(l2, c) ensures Key(c, true) in a + z {
      assert Flag(l, c);
    }
    if Restorable(l, all) {
      forall c | InStartArea(c) && BearsCollider(l2, c) ensures c in l2.mixed || Key(c, false) in a + z {
        if c !in l2.mixed {
          assert c in l.mixed || Key(c, false) in all;
        }
      }
    }
  }

  /** Releasing one bound block: it returns to the tail of the free list and the level forgets
      it. */
  lemma ReleaseHolds(l: Level, f: seq<BlockId>, done: seq<Block>, b: Block, rest: seq<Block>)
    requires CoreHolds(l, f, done + [b] + rest)
    ensures b.reversed ==> InGrid(b.cell)
    ensures var d := Disable(l, f, b);
            CoreHolds(d.0, d.1, done + rest) && (Holds(l, f, done + [b] + rest) ==> Holds(d.0, d.1, done + rest))
  {
    Concat(done + [b], rest);
    Concat(done, [b]);
    Concat(done, rest);
    Single(b);
    AgreesRelease(l, Keys(done), b, Keys(rest));
    AccountedGive(f, Ids(done), b.id, Ids(rest));
    assert Disable(l, f, b).0 == Disable(l, [], b).0;
  }

  /** Updating a block in place keeps its key and its id, so the invariant does not see it. */
  lemma UpdateInPlace(l: Level, f: seq<BlockId>, done: seq<Block>, p: Block, b: Block, tail: seq<Block>)
    requires CoreHolds(l, f, done + [p] + tail) && KeyOf(b) == KeyOf(p) && b.id == p.id
    ensures CoreHolds(l, f, done + [b] + tail)
    ensures Holds(l, f, done + [p] + tail) ==> Holds(l, f, done + [b] + tail)
  {
    Concat(done + [p], tail);
    Concat(done + [b], tail);
    Concat(done, [p]);
    Concat(done, [b]);
    Single(p);
    Single(b);
  }

  /** Under the core every pending color block lies inside the flag array. */
  lemma PendingInGrid(l: Level, f: seq<BlockId>, done: seq<Block>, pending: seq<Block>)
    requires CoreHolds(l, f, done + pending)
    ensures l.Valid() && ColorInGrid(pending)
  {
    forall b | b in pending ensures b.reversed ==> InGrid(b.cell) {
      var i :| 0 <= i < |pending| && pending[i] == b;
      assert Keys(done + pending)[|done| + i] == KeyOf(b);
      assert Claimed(l, KeyOf(b));
    }
  }

  /** The blocks' own updates keep the invariant's core; `done` are the blocks already updated. */
  lemma {:induction false} UpdateEachCore(l: Level, f: seq<BlockId>, done: seq<Block>,
                                           pending: seq<Block>, m: Mask)
    requires CoreHolds(l, f, done + pending)
    ensures l.Valid() && ColorInGrid(pending)
    ensures var r := UpdateEach(l, f, pending, m); CoreHolds(r.0, r.1, done + r.2)
    decreases |pending|
  {
    PendingInGrid(l, f, done, pending);
    if |pending| > 0 {
      var p := pending[0];
      var tail := pending[1..];
      SplitHead(done, pending);
      var step := UpdateCollider(p, m);
      var b := step.block;
      if step.Kept? {
        UpdateInPlace(l, f, done, p, b, tail);
        UpdateEachCore(l, f, done + [b], tail, m);
        var rest := UpdateEach(l, f, tail, m);
        assert UpdateEach(l, f, pending, m) == (rest.0, rest.1, [b] + rest.2);
        Assoc(done, [b], rest.2);
      } else {
        ReleaseHolds(l, f, done, p, tail);
        assert Disable(l, f, b) == Disable(l, f, p);
        var d := Disable(l, f, b);
        assert UpdateEach(l, f, pending, m) == UpdateEach(d.0, d.1, tail, m);
        UpdateEachCore(d.0, d.1, done, tail, m);
      }
    }
  }

  /** The blocks' own updates keep the whole invariant. */
  lemma {:induction false} UpdateEachFull(l: Level, f: seq<BlockId>, done: seq<Block>,
                                           pending: seq<Block>, m: Mask)
    requires Holds(l, f, done + pending)
    ensures l.Valid() && ColorInGrid(pending)
    ensures var r := UpdateEach(l, f, pending, m); Holds(r.0, r.1, done + r.2)
    decreases |pending|
  {
    PendingInGrid(l, f, done, pending);
    if |pending| > 0 {
      var p := pending[0];
      var tail := pending[1..];
      SplitHead(done, pending);
      var step := UpdateCollider(p, m);
      var b := step.block;
      if step.Kept? {
        UpdateInPlace(l, f, done, p, b, tail);
        UpdateEachFull(l, f, done + [b], tail, m);
        var rest := UpdateEach(l, f, tail, m);
        assert UpdateEach(l, f, pending, m) == (rest.0, rest.1, [b] + rest.2);
        Assoc(done, [b], rest.2);
      } else {
        ReleaseHolds(l, f, done, p, tail);
        assert Disable(l, f, b) == Disable(l, f, p);
        var d := Disable(l, f, b);
        assert UpdateEach(l, f, pending, m) == UpdateEach(d.0, d.1, tail, m);
        UpdateEachFull(d.0, d.1, done, tail, m);
      }
    }
  }

  /** The blocks' own updates keep the core, and the whole invariant when it held. */
  lemma UpdateEachHolds(l: Level, f: seq<BlockId>, done: seq<Block>, pending: seq<Block>, m: Mask)
    requires CoreHolds(l, f, done + pending)
    ensures l.Valid() && ColorInGrid(pending)
    ensures var r := UpdateEach(l, f, pending, m);
            CoreHolds(r.0, r.1, done + r.2) && (Holds(l, f, done + pending) ==> Holds(r.0, r.1, done + r.2))
  {
    UpdateEachCore(l, f, done, pending, m);
    if Holds(l, f, done + pending) {
      UpdateEachFull(l, f, done, pending, m);
    }
  }

  /** `UpdateBlocks` keeps the invariant. */
  lemma UpdateBlocksHolds(w: World)
    requires CoreInv(w)
    ensures WellFormed(w)
    ensures CoreInv(UpdateBlocks(w)) && (Inv(w) ==> Inv(UpdateBlocks(w)))
  {
    CoreWellFormed(w);
    assert [] + w.active == w.active;
    UpdateEachHolds(w.level, w.free, [], w.active, w.mask);
    var u := UpdateEach(w.level, w.free, w.active, w.mask);
    assert UpdateBlocks(w) == w.(level := u.0, free := u.1, active := u.2);
    assert [] + u.2 == u.2;
  }

  /** Every frame keeps the invariant but for restorability, whether or not its scan threw; a
      frame of the program loses restorability only when its scan ran out of free blocks, and a
      frame with the corrected grey-layer step never does. */
  lemma TickHolds(w: World, pos: Vec, order: Order)
    requires CoreInv(w)
    ensures WellFormed(w)
    ensures var r := Tick(w, pos, order);
            && CoreInv(r.world)
            && (Inv(w) ==> Inv(r.world) || (order == AsWritten && r.fault == Some(PoolExhausted)))
  {
    CoreWellFormed(w);
    var w0 := w.(mask := w.mask.(pos := pos));
    assert CoreInv(w0) && (Inv(w) ==> Inv(w0));
    ScanFromHolds(w0, ScanCells(w0.mask), order);
    var s := UpdateTileColliders(w0, order);
    UpdateBlocksHolds(s.world);
    assert Tick(w, pos, order) == Stepped(UpdateBlocks(s.world), s.fault);
  }
}

/** The grey-layer step as written against the corrected one. */
module MixedOrder {
  import opened Wrappers
  import opened Geometry
  import opened Levels
  import opened BlockPool
  import opened PartialBlocks
  import opened Kaleidoscope
  import opened FrameInvariant

  /** With every block bound, the as-written grey-layer step on a start-area collider tile in range
      throws after the tile is cleared and before any block is bound to put it back: the tile is
      gone from the mixed layer with nothing left to restore it, and the invariant is broken. */
  lemma AsWrittenLosesTile(w: World, c: Cell)
    requires Inv(w) && |w.free| == 0
    requires InStartArea(c) && BearsCollider(w.level, c) && c in w.level.mixed
    requires InReach(w, c, Lookup(w.level.mixed, c))
    ensures WellFormed(w)
    ensures var r := MixedBranchAsWritten(w, c, Lookup(w.level.mixed, c));
            && r.fault == Some(PoolExhausted)
            && c !in r.world.level.mixed
            && Key(c, false) !in Keys(r.world.active)
            && !Inv(r.world)
  {
    CoreWellFormed(w);
    var r := MixedBranchAsWritten(w, c, Lookup(w.level.mixed, c));
    assert r.world == w.(level := w.level.(mixed := w.level.mixed - {c}));
    forall k | k in Keys(w.active) ensures k != Key(c, false) {
      assert Claimed(w.level, k);
    }
    assert !Restorable(r.world.level, Keys(r.world.active));
  }

  /** The corrected step on the same input throws without touching anything, so the invariant
      survives it. */
  lemma CorrectedKeepsTile(w: World, c: Cell)
    requires Inv(w) && |w.free| == 0
    requires InReach(w, c, Lookup(w.level.mixed, c))
    ensures WellFormed(w)
    ensures var r := MixedBranch(w, c, Lookup(w.level.mixed, c));
            r.fault == Some(PoolExhausted) && r.world == w && Inv(r.world)
  {
    CoreWellFormed(w);
  }

  /** `a` (as written) and `b` (corrected) both ran out of free blocks, and differ only in that
      `a` has also cleared the mixed tile of cell `c`. */
  predicate LostTile(a: Stepped, b: Stepped, c: Cell)
  {
    && a.fault == Some(PoolExhausted) && b.fault == Some(PoolExhausted)
    && a.world == b.world.(level := b.world.level.(mixed := b.world.level.mixed - {c}))
  }

  /** The two grey-layer steps agree, except that on an empty free list the program's also clears
      the tile. */
  lemma GreyOrders(w: World, c: Cell, mt: Option<Tile>)
    requires WellFormed(w)
    ensures var a := GreyStep(w, c, mt, AsWritten); var b := GreyStep(w, c, mt, Corrected);
            a == b || (|w.free| == 0 && LostTile(a, b, c))
  {
  }

  /** The two orders give the same cell step, except that when the free list is empty the program
      also loses the cell's mixed tile. */
  lemma ScanCellOrders(w: World, c: Cell)
    requires WellFormed(w)
    ensures var a := ScanCell(w, c, AsWritten); var b := ScanCell(w, c, Corrected);
            a == b || (|w.free| == 0 && LostTile(a, b, c))
  {
    var mt := Lookup(w.level.mixed, c);
    if !FullOverlap(mt, Lookup(w.level.color, c)) {
      GreyOrders(w, c, mt);
      var ga := GreyStep(w, c, mt, AsWritten);
      var gb := GreyStep(w, c, mt, Corrected);
      if ga != gb {
        assert ScanCell(w, c, AsWritten) == ga && ScanCell(w, c, Corrected) == gb;
      } else if ga.fault.None? {
        var r := ColorBranch(ga.world, c, Lookup(w.level.color, c));
        assert ScanCell(w, c, AsWritten) == r && ScanCell(w, c, Corrected) == r;
      } else {
        assert ScanCell(w, c, AsWritten) == ga && ScanCell(w, c, Corrected) == ga;
      }
    }
  }

  /** The two orders give the same scan, except that the program's, when it runs out of free
      blocks at some cell's grey-layer step, has also lost that cell's mixed tile. */
  lemma {:induction false} ScanFromOrders(w: World, cells: seq<Cell>)
    requires WellFormed(w)
    ensures var a := ScanFrom(w, cells, AsWritten); var b := ScanFrom(w, cells, Corrected);
            a == b || exists c :: c in cells && LostTile(a, b, c)
    decreases |cells|
  {
    if |cells| > 0 {
      ScanCellOrders(w, cells[0]);
      var a := ScanCell(w, cells[0], AsWritten);
      if a == ScanCell(w, cells[0], Corrected) && a.fault.None? {
        ScanFromOrders(a.world, cells[1..]);
        var a2 := ScanFrom(a.world, cells[1..], AsWritten);
        var b2 := ScanFrom(a.world, cells[1..], Corrected);
        if a2 != b2 {
          var c :| c in cells[1..] && LostTile(a2, b2, c);
          assert c in cells;
        }
      }
    }
  }

  /** The blocks' own updates do not read the mixed layer or the flags when deciding which blocks
      stay bound, so the free list and the bound blocks they leave do not depend on the level. */
  lemma {:induction false} UpdateEachIgnoresLevel(l1: Level, l2: Level, f: seq<BlockId>,
                                                  pending: seq<Block>, m: Mask)
    requires l1.Valid() && l2.Valid() && ColorInGrid(pending)
    ensures UpdateEach(l1, f, pending, m).1 == UpdateEach(l2, f, pending, m).1
    ensures UpdateEach(l1, f, pending, m).2 == UpdateEach(l2, f, pending, m).2
    decreases |pending|
  {
    if |pending| > 0 {
      assert pending[0] in pending;
      assert ColorInGrid(pending[1..]) by {
        forall x | x in pending[1..] ensures x in pending { }
      }
      var b := UpdateCollider(pending[0], m).block;
      if UpdateCollider(pending[0], m).Kept? {
        UpdateEachIgnoresLevel(l1, l2, f, pending[1..], m);
      } else {
        var d1 := Disable(l1, f, b);
        var d2 := Disable(l2, f, b);
        assert d1.1 == d2.1;
        UpdateEachIgnoresLevel(d1.0, d2.0, d1.1, pending[1..], m);
        assert UpdateEach(l1, f, pending, m) == UpdateEach(d1.0, d1.1, pending[1..], m);
        assert UpdateEach(l2, f, pending, m) == UpdateEach(d2.0, d2.1, pending[1..], m);
      }
    }
  }

  /** A frame of the program and a corrected frame from the same world raise the same exception,
      if any, and leave the same free list and bound blocks; unless that exception is an
      exhausted free list, they leave the same world. */
  lemma TickOrders(w: World, pos: Vec)
    requires WellFormed(w)
    ensures var a := Tick(w, pos, AsWritten); var b := Tick(w, pos, Corrected);
            && a.fault == b.fault && a.world.free == b.world.free && a.world.active == b.world.active
            && (a.fault != Some(PoolExhausted) ==> a == b)
  {
    var w0 := w.(mask := w.mask.(pos := pos));
    ScanFromOrders(w0, ScanCells(w0.mask));
    var sa := UpdateTileColliders(w0, AsWritten);
    var sb := UpdateTileColliders(w0, Corrected);
    if sa != sb {
      assert sa.world.free == sb.world.free && sa.world.active == sb.world.active;
      UpdateEachIgnoresLevel(sa.world.level, sb.world.level, sb.world.free, sb.world.active, w0.mask);
    }
  }
}

=== FILE: geometry.dfy ===
/** An optional value, for lookups that can find nothing. */
module Wrappers {

  datatype Option<+T> = None | Some(value: T)
}

/**
 Plane geometry shared by the mask, the tiles and the partial blocks: world points,
 grid cells on a unit grid, the circular mask and the row-major scan square.
 */
module Geometry {

  /** A world-space point (only x and y matter; every z in the program is 0). */
  datatype Vec = Vec(x: real, y: real)

  /** A cell of the tile grid. */
  datatype Cell = Cell(x: int, y: int)

  /** The circular reveal mask: centre and radius. */
  datatype Mask = Mask(pos: Vec, radius: real)

  function Add(p: Vec, q: Vec): Vec
  {
    Vec(p.x + q.x, p.y + q.y)
  }

  function SqDist(p: Vec, q: Vec): real
  {
    (p.x - q.x) * (p.x - q.x) + (p.y - q.y) * (p.y - q.y)
  }

  /** A squared distance is never negative. */
  lemma SqDistNonNegative(p: Vec, q: Vec)
    ensures SqDist(p, q) >= 0.0
  {
    var dx := p.x - q.x;
    var dy := p.y - q.y;
    assert dx * dx >= 0.0;
    assert dy * dy >= 0.0;
  }

  /** Euclidean distance at most `radius`, stated without a square root: a distance is never
      negative, so a negative radius admits no point. */
  predicate WithinRadius(p: Vec, center: Vec, radius: real)
  {
    radius >= 0.0 && SqDist(p, center) <= radius * radius
  }

  /** Euclidean distance strictly below `radius`. */
  predicate StrictlyWithin(p: Vec, center: Vec, radius: real)
  {
    radius > 0.0 && SqDist(p, center) < radius * radius
  }

  /** The cell containing a world point, on a unit grid anchored at the origin. */
  function WorldToCell(p: Vec): (c: Cell)
    ensures c.x as real <= p.x < c.x as real + 1.0
    ensures c.y as real <= p.y < c.y as real + 1.0
  {
    Cell(p.x.Floor, p.y.Floor)
  }

  /** The world position of a cell's centre; it lies in that same cell. */
  function CellCenter(c: Cell): (p: Vec)
    ensures WorldToCell(p) == c
  {
    Vec(c.x as real + 0.5, c.y as real + 0.5)
  }

  /** Rounding up to an integer, as `(int)Mathf.Ceil(r)`. */
  function Ceil(r: real): (n: int)
    ensures r <= n as real < r + 1.0
  {
    -((-r).Floor)
  }

  /** The cells of column `x` from `ylo` up to `yhi`, in increasing y. */
  function Column(x: int, ylo: int, yhi: int): (r: seq<Cell>)
    decreases yhi - ylo + 1
  {
    if ylo > yhi then [] else [Cell(x, ylo)] + Column(x, ylo + 1, yhi)
  }

  /** The rectangle [xlo, xhi] x [ylo, yhi] visited with x in the outer loop and y in the inner
      loop, both increasing. */
  function Rect(xlo: int, xhi: int, ylo: int, yhi: int): (r: seq<Cell>)
    decreases xhi - xlo + 1
  {
    if xlo > xhi then [] else Column(xlo, ylo, yhi) + Rect(xlo + 1, xhi, ylo, yhi)
  }

  predicate InRect(c: Cell, xlo: int, xhi: int, ylo: int, yhi: int)
  {
    xlo <= c.x <= xhi && ylo <= c.y <= yhi
  }

  lemma {:induction false} ColumnContents(x: int, ylo: int, yhi: int)
    ensures forall c :: c in Column(x, ylo, yhi) <==> InRect(c, x, x, ylo, yhi)
    ensures |Column(x, ylo, yhi)| == if ylo > yhi then 0 else yhi - ylo + 1
    decreases yhi - ylo + 1
  {
    if ylo <= yhi {
      ColumnContents(x, ylo + 1, yhi);
    }
  }

  /** A cell is visited by `Rect` exactly when it lies in the rectangle, and every cell of the
      rectangle is visited once: the walk has one entry per cell. */
  lemma {:induction false} RectContents(xlo: int, xhi: int, ylo: int, yhi: int)
    ensures forall c :: c in Rect(xlo, xhi, ylo, yhi) <==> InRect(c, xlo, xhi, ylo, yhi)
    ensures |Rect(xlo, xhi, ylo, yhi)| ==
            if xlo > xhi || ylo > yhi then 0 else (xhi - xlo + 1) * (yhi - ylo + 1)
    decreases xhi - xlo + 1
  {
    if xlo <= xhi {
      ColumnContents(xlo, ylo, yhi);
      RectContents(xlo + 1, xhi, ylo, yhi);
      if ylo <= yhi {
        calc {
          |Rect(xlo, xhi, ylo, yhi)|;
          (yhi - ylo + 1) + |Rect(xlo + 1, xhi, ylo, yhi)|;
          (xhi - xlo + 1) * (yhi - ylo + 1);
        }
      }
    }
  }
}

=== FILE: kaleidoscope.dfy ===
/**
 The kaleidoscope: the circular mask, the per-frame scan of the cells around it, and the
 bookkeeping of partial blocks taken from and returned to the free list.

 One frame (`Tick`) places the mask, scans the square of cells around the mask's cell in
 row-major order (x outer, y inner), and then updates every bound block once. An exception in
 the scan (an empty free list, a flag index outside the 31 x 31 array) ends the scan early and
 keeps every change made before it; the frame's block updates still run.
 */
module Kaleidoscope {
  import opened Wrappers
  import opened Geometry
  import opened Levels
  import opened BlockPool
  import opened PartialBlocks

  /** The exceptions the scan can raise. */
  datatype Fault = PoolExhausted | OutsideFlagGrid

  /** Everything one frame reads and writes: the level, the free list, the blocks currently
      bound (in the order they were bound) and the mask. */
  datatype World = World(level: Level, free: seq<BlockId>, active: seq<Block>, mask: Mask)

  /** The state reached by part of a frame and the exception, if any, that ended it. */
  datatype Stepped = Stepped(world: World, fault: Option<Fault>)

  /** The blocks' own updates need the flag array's shape and every color block inside it. */
  predicate WellFormed(w: World)
  {
    && w.level.Valid()
    && ColorInGrid(w.active)
  }

  function Lookup(m: map<Cell, Tile>, c: Cell): (r: Option<Tile>)
    ensures r.Some? <==> c in m
    ensures r.Some? ==> r.value == m[c]
  {
    if c in m then Some(m[c]) else None
  }

  /** `Mathf.Max` over a non-empty array. */
  function MaxOf(s: seq<real>): (r: real)
    requires |s| > 0
    ensures r in s && forall x :: x in s ==> x <= r
  {
    if |s| == 1 then s[0]
    else
      var m := MaxOf(s[1..]);
      assert forall x :: x in s ==> x == s[0] || x in s[1..];
      if s[0] > m then s[0] else m
  }

  /** `Mathf.Min` over a non-empty array. */
  function MinOf(s: seq<real>): (r: real)
    requires |s| > 0
    ensures r in s && forall x :: x in s ==> r <= x
  {
    if |s| == 1 then s[0]
    else
      var m := MinOf(s[1..]);
      assert forall x :: x in s ==> x == s[0] || x in s[1..];
      if s[0] < m then s[0] else m
  }

  function Xs(q: Quad): seq<real>
  {
    [q.v0.x, q.v1.x, q.v2.x, q.v3.x]
  }

  function Ys(q: Quad): seq<real>
  {
    [q.v0.y, q.v1.y, q.v2.y, q.v3.y]
  }

  /** `GetTileEdges`: top, bottom, left, right of a tile. A grid-collider tile is the unit cell;
      any other tile is the bounding box of its shape's first four vertices, so the box is never
      inverted and holds all four vertices. */
  function GetTileEdges(t: Tile): (r: seq<real>)
    ensures |r| == 4 && r[1] <= r[0] && r[2] <= r[3]
    ensures t.collider == Grid ==> r == [0.5, -0.5, -0.5, 0.5]
    ensures t.collider != Grid ==>
              r[0] in Ys(t.shape) && r[1] in Ys(t.shape) && r[2] in Xs(t.shape) && r[3] in Xs(t.shape)
    ensures t.collider != Grid ==>
              forall i :: 0 <= i < 4 ==>
                r[1] <= Ys(t.shape)[i] <= r[0] && r[2] <= Xs(t.shape)[i] <= r[3]
  {
    if t.collider == Grid then [0.5, -0.5, -0.5, 0.5]
    else
      var xs := Xs(t.shape);
      var ys := Ys(t.shape);
      assert forall i :: 0 <= i < 4 ==> xs[i] in xs && ys[i] in ys;
      [MaxOf(ys), MinOf(ys), MinOf(xs), MaxOf(xs)]
  }

  /** `IsWithinRange`: some corner of the tile (centre plus edge offsets) lies within the mask's
      radius. */
  function IsWithinRange(center: Vec, edges: seq<real>, m: Mask): (r: bool)
    requires |edges| >= 4
    ensures r <==> exists k :: WithinRadius(Add(center, Offset(SetEdges(edges), k)), m.pos, m.radius)
  {
    var bottomLeft := WithinRadius(Vec(center.x + edges[2], center.y + edges[1]), m.pos, m.radius);
    var bottomRight := WithinRadius(Vec(center.x + edges[3], center.y + edges[1]), m.pos, m.radius);
    var topLeft := WithinRadius(Vec(center.x + edges[2], center.y + edges[0]), m.pos, m.radius);
    var topRight := WithinRadius(Vec(center.x + edges[3], center.y + edges[0]), m.pos, m.radius);
    var b := SetEdges(edges);
    assert Add(center, Offset(b, BottomLeft)) == Vec(center.x + edges[2], center.y + edges[1]);
    assert Add(center, Offset(b, BottomRight)) == Vec(center.x + edges[3], center.y + edges[1]);
    assert Add(center, Offset(b, TopLeft)) == Vec(center.x + edges[2], center.y + edges[0]);
    assert Add(center, Offset(b, TopRight)) == Vec(center.x + edges[3], center.y + edges[0]);
    bottomLeft || bottomRight || topLeft || topRight
  }

  /** `IsInKaleidoscope`: strictly closer to the mask's centre than its radius, unlike the
      corner tests, which admit the circle itself. */
  function IsInKaleidoscope(p: Vec, m: Mask): (r: bool)
    ensures r <==> WithinRadius(p, m.pos, m.radius) && SqDist(p, m.pos) != m.radius * m.radius
    ensures m.radius <= 0.0 ==> !r
  {
    SqDistNonNegative(p, m.pos);
    StrictlyWithin(p, m.pos, m.radius)
  }

  /** The cells one frame visits: every cell whose x and y are each within the rounded-up radius
      of the mask's cell, and no other. */
  function ScanCells(m: Mask): (r: seq<Cell>)
    ensures var home := WorldToCell(m.pos);
            var reach := Ceil(m.radius);
            forall c :: c in r <==> -reach <= c.x - home.x <= reach && -reach <= c.y - home.y <= reach
  {
    var home := WorldToCell(m.pos);
    var reach := Ceil(m.radius);
    RectContents(home.x - reach, home.x + reach, home.y - reach, home.y + reach);
    Rect(home.x - reach, home.x + reach, home.y - reach, home.y + reach)
  }

  /** Corner flags of a block that has not been updated yet. */
  const Unclassified: Corners := Corners(false, false, false, false)

  /** `SetBlockActive` with `SetEdges` and the polarity: the head of the free list is bound to
      the cell whose centre is given, with the tile's edges. */
  function Bind(w: World, c: Cell, edges: seq<real>, reversed: bool): (r: (World, Block))
    requires |w.free| > 0 && |edges| >= 4
    ensures [r.1.id] + r.0.free == w.free
    ensures r.0 == w.(free := r.0.free)
    ensures r.1.cell == c && r.1.bounds == SetEdges(edges) && r.1.reversed == reversed
  {
    var (id, rest) := SetBlockActive(w.free);
    (w.(free := rest),
     Block(id, WorldToCell(CellCenter(c)), SetEdges(edges), reversed, Unclassified, Collider(false, [])))
  }

  /** The update the scan gives a block right after binding it: a block that stays bound joins
      the bound blocks; a released one is disabled. */
  function Settle(w: World, b: Block): (r: World)
    requires w.level.Valid() && (b.reversed ==> InGrid(b.cell))
    ensures r.mask == w.mask && r.level.Valid()
  {
    match UpdateCollider(b, w.mask)
    case Kept(b1) => w.(active := w.active + [b1])
    case Released(b1) =>
      var (l, f) := Disable(w.level, w.free, b1);
      w.(level := l, free := f)
  }

  /** A block bound to a cell because its tile is in range has at least one corner within the
      mask, so the update the scan gives it at once never releases it. */
  lemma FreshBlockStays(b: Block, edges: seq<real>, m: Mask)
    requires |edges| >= 4 && b.bounds == SetEdges(edges)
    requires IsWithinRange(CellCenter(b.cell), edges, m)
    ensures UpdateCollider(b, m).Kept?
  {
    var k :| WithinRadius(Add(CellCenter(b.cell), Offset(SetEdges(edges), k)), m.pos, m.radius);
    assert UpdateCollider(b, m).block.corners.Get(k);
  }

  /** The tile is present and some corner of it lies within the mask. */
  predicate InReach(w: World, c: Cell, t: Option<Tile>)
  {
    t.Some? && IsWithinRange(CellCenter(c), GetTileEdges(t.value), w.mask)
  }

  /** `r` is `w` with the head of the free list bound, as the newest bound block, to cell `c` with
      the tile's edges and the given polarity; every earlier bound block is unchanged. */
  predicate BoundHead(w: World, r: World, c: Cell, edges: seq<real>, reversed: bool)
  {
    && |w.free| > 0 && r.free == w.free[1..] && r.mask == w.mask
    && |r.active| == |w.active| + 1 && r.active[..|w.active|] == w.active
    && var b := r.active[|w.active|];
       b.id == w.free[0] && b.cell == c && b.reversed == reversed
       && |edges| >= 4 && b.bounds == SetEdges(edges)
  }

  /** What the scan may do to a world: bind blocks taken from the head of the free list behind the
      blocks already bound. The mask and the grey and color layers stay as they were; only the
      mixed layer and the flags can change. */
  predicate Extends(w: World, r: World)
  {
    && r.mask == w.mask && r.level.grey == w.level.grey && r.level.color == w.level.color
    && |w.active| <= |r.active| <= |w.active| + |w.free|
    && r.active[..|w.active|] == w.active
    && r.free == w.free[|r.active| - |w.active|..]
  }

  lemma ExtendsRefl(w: World)
    ensures Extends(w, w)
  {
    assert w.free[0..] == w.free;
  }

  lemma ExtendsTrans(u: World, v: World, w: World)
    requires Extends(u, v) && Extends(v, w)
    ensures Extends(u, w)
  {
    var n := |v.active| - |u.active|;
    var m := |w.active| - |v.active|;
    assert w.active[..|u.active|] == w.active[..|v.active|][..|u.active|];
    assert w.free == u.free[n..][m..] == u.free[n + m..];
  }

  lemma BoundHeadExtends(w: World, r: World, c: Cell, edges: seq<real>, reversed: bool)
    requires BoundHead(w, r, c, edges, reversed)
    requires r.level.grey == w.level.grey && r.level.color == w.level.color
    ensures Extends(w, r)
  {
  }

  /** The scan's grey-layer step for one cell, taking the block before clearing the mixed tile so
      that an empty free list leaves the cell as it was. A tile in range gets exactly one block,
      bound with `reversed` false, and its mixed cell becomes null; the collider type is not
      consulted. */
  function MixedBranch(w: World, c: Cell, mt: Option<Tile>): (r: Stepped)
    requires WellFormed(w)
    ensures WellFormed(r.world) && Extends(w, r.world)
    ensures !InReach(w, c, mt) ==> r == Stepped(w, None)
    ensures InReach(w, c, mt) && |w.free| == 0 ==> r == Stepped(w, Some(PoolExhausted))
    ensures InReach(w, c, mt) && |w.free| > 0 ==>
              && r.fault == None
              && BoundHead(w, r.world, c, GetTileEdges(mt.value), false)
              && r.world.level == w.level.(mixed := w.level.mixed - {c})
  {
    match mt
    case None => ExtendsRefl(w); Stepped(w, None)
    case Some(t) =>
      var edges := GetTileEdges(t);
      if !IsWithinRange(CellCenter(c), edges, w.mask) then ExtendsRefl(w); Stepped(w, None)
      else if |w.free| == 0 then ExtendsRefl(w); Stepped(w, Some(PoolExhausted))
      else
        var w1 := w.(level := w.level.(mixed := w.level.mixed - {c}));
        var (w2, b) := Bind(w1, c, edges, false);
        FreshBlockStays(b, edges, w.mask);
        var r := Settle(w2, b);
        BoundHeadExtends(w, r, c, edges, false);
        Stepped(r, None)
  }

  /** The grey-layer step as the program writes it: the mixed tile is cleared first and the
      block taken afterwards, so an empty free list throws with the tile already gone. */
  function MixedBranchAsWritten(w: World, c: Cell, mt: Option<Tile>): (r: Stepped)
    requires WellFormed(w)
    ensures WellFormed(r.world) && Extends(w, r.world)
    ensures !InReach(w, c, mt) ==> r == Stepped(w, None)
    ensures InReach(w, c, mt) && |w.free| == 0 ==>
              r == Stepped(w.(level := w.level.(mixed := w.level.mixed - {c})), Some(PoolExhausted))
    ensures InReach(w, c, mt) && |w.free| > 0 ==> r == MixedBranch(w, c, mt)
  {
    if !InReach(w, c, mt) then ExtendsRefl(w); Stepped(w, None)
    else
      var w1 := w.(level := w.level.(mixed := w.level.mixed - {c}));
      if |w1.free| == 0 then
        assert w1.free[0..] == w.free;
        Stepped(w1, Some(PoolExhausted))
      else
        var (w2, b) := Bind(w1, c, GetTileEdges(mt.value), false);
        var r := Settle(w2, b);
        assert Stepped(r, None) == MixedBranch(w, c, mt);
        Stepped(r, None)
  }

  /** A color tile in range that has a collider. */
  predicate ColorWanted(w: World, c: Cell, ct: Option<Tile>)
  {
    InReach(w, c, ct) && ct.value.collider != NoCollider
  }

  /** The scan's color-layer step for one cell. A block, bound with `reversed` true, is taken
      exactly for a color tile in range, with a collider, whose flag is still clear; the flag is
      then set. A flag outside the 31 x 31 array throws before anything changes. */
  function ColorBranch(w: World, c: Cell, ct: Option<Tile>): (r: Stepped)
    requires WellFormed(w)
    ensures WellFormed(r.world) && Extends(w, r.world)
    ensures !ColorWanted(w, c, ct) ==> r == Stepped(w, None)
    ensures ColorWanted(w, c, ct) && !InGrid(c) ==> r == Stepped(w, Some(OutsideFlagGrid))
    ensures ColorWanted(w, c, ct) && InGrid(c) && Flag(w.level, c) ==> r == Stepped(w, None)
    ensures ColorWanted(w, c, ct) && InGrid(c) && !Flag(w.level, c) && |w.free| == 0 ==>
              r == Stepped(w, Some(PoolExhausted))
    ensures ColorWanted(w, c, ct) && InGrid(c) && !Flag(w.level, c) && |w.free| > 0 ==>
              && r.fault == None
              && BoundHead(w, r.world, c, GetTileEdges(ct.value), true)
              && r.world.level == WithFlag(w.level, c, true)
  {
    ExtendsRefl(w);
    match ct
    case None => Stepped(w, None)
    case Some(t) =>
      var edges := GetTileEdges(t);
      if !IsWithinRange(CellCenter(c), edges, w.mask) then Stepped(w, None)
      else if t.collider == NoCollider then Stepped(w, None)
      else
        match CheckForColorSquare(w.level, c.x, c.y)
        case None => Stepped(w, Some(OutsideFlagGrid))
        case Some(present) =>
          if present then Stepped(w, None)
          else if |w.free| == 0 then Stepped(w, Some(PoolExhausted))
          else
            var (w1, b) := Bind(w, c, edges, true);
            var w2 := w1.(level := SetColorSquare(w1.level, c.x, c.y, true).value);
            FreshBlockStays(b, edges, w.mask);
            var r := Settle(w2, b);
            BoundHeadExtends(w, r, c, edges, true);
            Stepped(r, None)
  }

  /** What the color-layer step's contract says it does, case by case: nothing for an unwanted
      tile, a throw outside the flag array, nothing for a set flag, a throw for an empty free
      list, and otherwise one color block bound with the flag set. */
  predicate ColorOutcome(s: World, c: Cell, ct: Option<Tile>, r: Stepped)
    requires WellFormed(s)
  {
    && Extends(s, r.world)
    && (!ColorWanted(s, c, ct) ==> r == Stepped(s, None))
    && (ColorWanted(s, c, ct) && !InGrid(c) ==> r == Stepped(s, Some(OutsideFlagGrid)))
    && (ColorWanted(s, c, ct) && InGrid(c) && Flag(s.level, c) ==> r == Stepped(s, None))
    && (ColorWanted(s, c, ct) && InGrid(c) && !Flag(s.level, c) && |s.free| == 0 ==>
          r == Stepped(s, Some(PoolExhausted)))
    && (ColorWanted(s, c, ct) && InGrid(c) && !Flag(s.level, c) && |s.free| > 0 ==>
          && r.fault == None
          && BoundHead(s, r.world, c, GetTileEdges(ct.value), true)
          && r.world.level == WithFlag(s.level, c, true))
  }

  lemma ColorOutcomeOf(s: World, c: Cell, ct: Option<Tile>)
    requires WellFormed(s)
    ensures ColorOutcome(s, c, ct, ColorBranch(s, c, ct))
  {
  }

  /** Both layers hold full grid-collider tiles: nothing at this cell can change. */
  predicate FullOverlap(mt: Option<Tile>, ct: Option<Tile>)
  {
    mt.Some? && ct.Some? && mt.value.collider == Grid && ct.value.collider == Grid
  }

  /** Which grey-layer step a scan uses: `AsWritten` is the program's (the tile is cleared, then
      the block taken); `Corrected` takes the block first. Every frame of the program is a frame
      with `AsWritten`. */
  datatype Order = AsWritten | Corrected

  function GreyStep(w: World, c: Cell, mt: Option<Tile>, order: Order): (r: Stepped)
    requires WellFormed(w)
    ensures WellFormed(r.world) && Extends(w, r.world)
    ensures r.world.level.squares == w.level.squares
    ensures r.world.level.mixed == w.level.mixed || r.world.level.mixed == w.level.mixed - {c}
    ensures |r.world.active| <= |w.active| + 1
    ensures r.fault.Some? ==> |r.world.active| == |w.active|
    ensures !InReach(w, c, mt) ==> r == Stepped(w, None)
    ensures InReach(w, c, mt) && |w.free| == 0 ==> r.fault == Some(PoolExhausted)
    ensures InReach(w, c, mt) && r.fault == None ==> GreyBound(w, r.world, c, mt.value)
  {
    if order == AsWritten then MixedBranchAsWritten(w, c, mt) else MixedBranch(w, c, mt)
  }

  /** The grey-layer step has run at `c`: the mixed tile is gone, and the first block bound after
      those of `w` stands at `c` for a grey tile, with the tile's edges. */
  predicate GreyBound(w: World, r: World, c: Cell, t: Tile)
  {
    && c !in r.level.mixed
    && |w.active| < |r.active|
    && var b := r.active[|w.active|];
       b.cell == c && !b.reversed && b.bounds == SetEdges(GetTileEdges(t))
  }

  /** The color-layer step has run at `c`: its flag is set, and when it was clear in `w` the newest
      bound block stands at `c` for a color tile, with the tile's edges. */
  predicate ColorBound(w: World, r: World, c: Cell, t: Tile)
    requires w.level.Valid() && r.level.Valid()
  {
    && InGrid(c) && Flag(r.level, c)
    && (!Flag(w.level, c) ==>
          && |w.active| < |r.active|
          && var b := r.active[|r.active| - 1];
             b.cell == c && b.reversed && b.bounds == SetEdges(GetTileEdges(t)))
  }

  /** The scan only takes tiles out of the mixed layer and only sets flags. */
  ghost predicate Narrows(w: World, r: World)
    requires w.level.Valid() && r.level.Valid()
  {
    && (forall d :: d in r.level.mixed ==> d in w.level.mixed && r.level.mixed[d] == w.level.mixed[d])
    && (forall d :: InGrid(d) && Flag(w.level, d) ==> Flag(r.level, d))
  }

  lemma NarrowsTrans(u: World, v: World, w: World)
    requires u.level.Valid() && v.level.Valid() && w.level.Valid()
    requires Narrows(u, v) && Narrows(v, w)
    ensures Narrows(u, w)
  {
  }

  /** One cell of the scan: both tiles are read first, then the grey-layer step, then (unless it
      threw) the color-layer step. */
  function ScanCell(w: World, c: Cell, order: Order): (r: Stepped)
    requires WellFormed(w)
    ensures WellFormed(r.world) && Extends(w, r.world)
    ensures FullOverlap(Lookup(w.level.mixed, c), Lookup(w.level.color, c)) ==> r == Stepped(w, None)
  {
    var mt := Lookup(w.level.mixed, c);
    var ct := Lookup(w.level.color, c);
    if FullOverlap(mt, ct) then ExtendsRefl(w); Stepped(w, None)
    else
      var s := GreyStep(w, c, mt, order);
      if s.fault.Some? then s
      else
        var r := ColorBranch(s.world, c, ct);
        ExtendsTrans(w, s.world, r.world);
        r
  }

  /** One cell's scan changes the mixed layer only by taking out the tile at `c`, and the flags
      only by setting the flag at `c`. */
  lemma ScanCellLocal(w: World, c: Cell, order: Order)
    requires WellFormed(w)
    ensures var r := ScanCell(w, c, order).world;
            && (r.level.mixed == w.level.mixed || r.level.mixed == w.level.mixed - {c})
            && (|| r.level.squares == w.level.squares
                || (InGrid(c) && r.level.squares == WithFlag(w.level, c, true).squares))
  {
    var mt := Lookup(w.level.mixed, c);
    var ct := Lookup(w.level.color, c);
    if !FullOverlap(mt, ct) {
      var s := GreyStep(w, c, mt, order);
      if s.fault == None {
        assert ScanCell(w, c, order) == ColorBranch(s.world, c, ct);
        ColorOutcomeOf(s.world, c, ct);
        LocalAfter(w, s.world, c, ct, ColorBranch(s.world, c, ct));
      }
    }
  }

  /** The color-layer step changes at most the flag at `c`. */
  lemma LocalAfter(w: World, s: World, c: Cell, ct: Option<Tile>, t: Stepped)
    requires w.level.Valid() && WellFormed(s) && s.level.squares == w.level.squares
    requires s.level.mixed == w.level.mixed || s.level.mixed == w.level.mixed - {c}
    requires ColorOutcome(s, c, ct, t)
    ensures var r := t.world;
            && (r.level.mixed == w.level.mixed || r.level.mixed == w.level.mixed - {c})
            && (|| r.level.squares == w.level.squares
                || (InGrid(c) && r.level.squares == WithFlag(w.level, c, true).squares))
  {
    if t.world.level.squares != s.level.squares {
      assert WithFlag(s.level, c, true).squares == WithFlag(w.level, c, true).squares;
    }
  }

  /** Changes confined to cell `c`, as one cell's scan makes them, only take out tiles and only set
      flags. */
  lemma LocalNarrows(w: World, r: World, c: Cell)
    requires w.level.Valid() && r.level.Valid()
    requires r.level.mixed == w.level.mixed || r.level.mixed == w.level.mixed - {c}
    requires || r.level.squares == w.level.squares
             || (InGrid(c) && r.level.squares == WithFlag(w.level, c, true).squares)
    ensures Narrows(w, r)
  {
    if r.level.squares != w.level.squares {
      var l := WithFlag(w.level, c, true);
      forall d | InGrid(d) && Flag(w.level, d) ensures Flag(r.level, d) {
        assert Flag(r.level, d) == Flag(l, d);
      }
    }
  }

  /** The grey-layer half of one cell's scan: unless both tiles are full grid colliders, an
      in-range mixed tile is taken out with a grey block bound for it, or the free list is empty
      and the scan throws. */
  lemma ScanCellGrey(w: World, c: Cell, order: Order)
    requires WellFormed(w)
    ensures var mt := Lookup(w.level.mixed, c);
            var r := ScanCell(w, c, order);
            !FullOverlap(mt, Lookup(w.level.color, c)) && InReach(w, c, mt) ==>
              && (|w.free| == 0 ==> r.fault == Some(PoolExhausted))
              && (r.fault == None ==> GreyBound(w, r.world, c, mt.value))
  {
    var mt := Lookup(w.level.mixed, c);
    var ct := Lookup(w.level.color, c);
    if !FullOverlap(mt, ct) && InReach(w, c, mt) {
      var s := GreyStep(w, c, mt, order);
      if s.fault == None {
        assert ScanCell(w, c, order) == ColorBranch(s.world, c, ct);
        GreyAfter(w, s.world, c, mt.value, ct);
      }
    }
  }

  /** The color-layer step keeps what the grey-layer step did. */
  lemma GreyAfter(w: World, s: World, c: Cell, t: Tile, ct: Option<Tile>)
    requires WellFormed(s) && GreyBound(w, s, c, t)
    ensures GreyBound(w, ColorBranch(s, c, ct).world, c, t)
  {
    var r := ColorBranch(s, c, ct).world;
    assert r.level.mixed == s.level.mixed;
    assert r.active[|w.active|] == r.active[..|s.active|][|w.active|];
  }

  /** The color-layer half of one cell's scan: unless both tiles are full grid colliders, a wanted
      color tile gets its flag set, with a color block bound for it if the flag was clear; a flag
      outside the array or an empty free list makes the scan throw instead. */
  lemma ScanCellColor(w: World, c: Cell, order: Order)
    requires WellFormed(w)
    ensures var ct := Lookup(w.level.color, c);
            var r := ScanCell(w, c, order);
            !FullOverlap(Lookup(w.level.mixed, c), ct) && ColorWanted(w, c, ct) ==>
              && (!InGrid(c) ==> r.fault.Some?)
              && (r.fault == None ==> ColorBound(w, r.world, c, ct.value))
  {
    var mt := Lookup(w.level.mixed, c);
    var ct := Lookup(w.level.color, c);
    if !FullOverlap(mt, ct) && ColorWanted(w, c, ct) {
      var s := GreyStep(w, c, mt, order);
      if s.fault == None {
        assert ScanCell(w, c, order) == ColorBranch(s.world, c, ct);
        ColorOutcomeOf(s.world, c, ct);
        ColorAfter(w, s.world, c, ct, ColorBranch(s.world, c, ct));
      }
    }
  }

  /** The color-layer step after a fault-free grey-layer step, which left the flags and the mask
      alone. */
  lemma ColorAfter(w: World, s: World, c: Cell, ct: Option<Tile>, r: Stepped)
    requires w.level.Valid() && WellFormed(s) && ColorWanted(w, c, ct)
    requires s.mask == w.mask && s.level.squares == w.level.squares && |w.active| <= |s.active|
    requires ColorOutcome(s, c, ct, r)
    ensures && (!InGrid(c) ==> r.fault.Some?)
            && (r.fault == None ==> ColorBound(w, r.world, c, ct.value))
  {
    assert ColorWanted(s, c, ct);
    if InGrid(c) {
      assert Flag(s.level, c) == Flag(w.level, c);
      if !Flag(s.level, c) && |s.free| > 0 {
        ColorAfterBind(w, s, c, ct, r);
      }
    }
  }

  /** The binding case of `ColorAfter`: the flag was clear and a block was free. */
  lemma ColorAfterBind(w: World, s: World, c: Cell, ct: Option<Tile>, r: Stepped)
    requires w.level.Valid() && WellFormed(s) && ColorWanted(s, c, ct) && |w.active| <= |s.active|
    requires InGrid(c) && !Flag(s.level, c) && |s.free| > 0
    requires ColorOutcome(s, c, ct, r)
    ensures r.fault == None && r.world.level == WithFlag(s.level, c, true)
    ensures |w.active| < |r.world.active|
    ensures var b := r.world.active[|r.world.active| - 1];
            b.cell == c && b.reversed && b.bounds == SetEdges(GetTileEdges(ct.value))
  {
    assert BoundHead(s, r.world, c, GetTileEdges(ct.value), true);
  }

  /** The scan over a list of cells, stopping at the first exception. */
  function ScanFrom(w: World, cells: seq<Cell>, order: Order): (r: Stepped)
    requires WellFormed(w)
    ensures WellFormed(r.world) && Extends(w, r.world)
    ensures |cells| == 0 ==> r == Stepped(w, None)
    decreases |cells|
  {
    if |cells| == 0 then ExtendsRefl(w); Stepped(w, None)
    else
      var s := ScanCell(w, cells[0], order);
      if s.fault.Some? then s
      else
        var r := ScanFrom(s.world, cells[1..], order);
        ExtendsTrans(w, s.world, r.world);
        r
  }

  /** `UpdateTileColliders`: the scan of every cell around the mask. */
  function UpdateTileColliders(w: World, order: Order): (r: Stepped)
    requires WellFormed(w)
    ensures WellFormed(r.world) && Extends(w, r.world)
  {
    ScanFrom(w, ScanCells(w.mask), order)
  }

  /** Some block of `bs` stands at `c` for a tile of the given layer and keeps a corner within the
      mask, so its own update keeps it bound. */
  predicate HasBlock(bs: seq<Block>, c: Cell, reversed: bool, m: Mask)
  {
    exists i :: 0 <= i < |bs| && bs[i].cell == c && bs[i].reversed == reversed && UpdateCollider(bs[i], m).Kept?
  }

  /** The scan has dealt with the mixed tile at `c` of `w`: if it is in range, it is out of the
      mixed layer with a grey block bound for it. */
  predicate GreyCovered(w: World, r: World, c: Cell)
  {
    InReach(w, c, Lookup(w.level.mixed, c)) ==> c !in r.level.mixed && HasBlock(r.active, c, false, w.mask)
  }

  /** The scan has dealt with the color tile at `c` of `w`: if it is wanted, its flag is set, with a
      color block bound for it if the flag was clear in `w`. */
  predicate ColorCovered(w: World, r: World, c: Cell)
    requires w.level.Valid() && r.level.Valid()
  {
    ColorWanted(w, c, Lookup(w.level.color, c)) ==>
      InGrid(c) && Flag(r.level, c) && (!Flag(w.level, c) ==> HasBlock(r.active, c, true, w.mask))
  }

  /** The scan has dealt with cell `c` of `w`, on both layers. */
  predicate Covered(w: World, r: World, c: Cell)
    requires w.level.Valid() && r.level.Valid()
  {
    GreyCovered(w, r, c) && ColorCovered(w, r, c)
  }

  /** A fault-free scan of one cell deals with it. */
  lemma ScanCellCovers(w: World, c: Cell, order: Order)
    requires WellFormed(w) && !FullOverlap(Lookup(w.level.mixed, c), Lookup(w.level.color, c))
    ensures var r := ScanCell(w, c, order); r.fault == None ==> Covered(w, r.world, c)
  {
    ScanCellCoversGrey(w, c, order);
    ScanCellCoversColor(w, c, order);
  }

  lemma ScanCellCoversGrey(w: World, c: Cell, order: Order)
    requires WellFormed(w) && !FullOverlap(Lookup(w.level.mixed, c), Lookup(w.level.color, c))
    ensures var r := ScanCell(w, c, order); r.fault == None ==> GreyCovered(w, r.world, c)
  {
    var r := ScanCell(w, c, order);
    ScanCellGrey(w, c, order);
    if r.fault == None {
      GreyCoveredOf(w, r.world, c);
    }
  }

  /** A grey block bound for an in-range tile deals with the tile. */
  lemma GreyCoveredOf(w: World, r: World, c: Cell)
    requires r.mask == w.mask
    requires InReach(w, c, Lookup(w.level.mixed, c)) ==> GreyBound(w, r, c, Lookup(w.level.mixed, c).value)
    ensures GreyCovered(w, r, c)
  {
    var mt := Lookup(w.level.mixed, c);
    if InReach(w, c, mt) {
      var i := |w.active|;
      FreshBlockStays(r.active[i], GetTileEdges(mt.value), w.mask);
      assert HasBlock(r.active, c, false, w.mask);
    }
  }

  lemma ScanCellCoversColor(w: World, c: Cell, order: Order)
    requires WellFormed(w) && !FullOverlap(Lookup(w.level.mixed, c), Lookup(w.level.color, c))
    ensures var r := ScanCell(w, c, order); r.fault == None ==> ColorCovered(w, r.world, c)
  {
    var r := ScanCell(w, c, order);
    ScanCellColor(w, c, order);
    if r.fault == None {
      ColorCoveredOf(w, r.world, c);
    }
  }

  /** A color block bound for a wanted tile whose flag was clear deals with the tile. */
  lemma ColorCoveredOf(w: World, r: World, c: Cell)
    requires w.level.Valid() && r.level.Valid() && r.mask == w.mask
    requires ColorWanted(w, c, Lookup(w.level.color, c)) ==>
               ColorBound(w, r, c, Lookup(w.level.color, c).value)
    ensures ColorCovered(w, r, c)
  {
    var ct := Lookup(w.level.color, c);
    if ColorWanted(w, c, ct) && !Flag(w.level, c) {
      var i := |r.active| - 1;
      FreshBlockStays(r.active[i], GetTileEdges(ct.value), w.mask);
      assert HasBlock(r.active, c, true, w.mask);
    }
  }

  lemma HasBlockGrows(a: seq<Block>, b: seq<Block>, c: Cell, reversed: bool, m: Mask)
    requires |a| <= |b| && b[..|a|] == a && HasBlock(a, c, reversed, m)
    ensures HasBlock(b, c, reversed, m)
  {
    var i :| 0 <= i < |a| && a[i].cell == c && a[i].reversed == reversed && UpdateCollider(a[i], m).Kept?;
    assert b[i] == b[..|a|][i];
  }

  /** What the scan has dealt with stays dealt with. */
  lemma CoveredStays(w: World, s: World, r: World, c: Cell)
    requires w.level.Valid() && s.level.Valid() && r.level.Valid()
    requires Covered(w, s, c) && Extends(s, r) && Narrows(s, r)
    ensures Covered(w, r, c)
  {
    if InReach(w, c, Lookup(w.level.mixed, c)) {
      HasBlockGrows(s.active, r.active, c, false, w.mask);
    }
    if ColorWanted(w, c, Lookup(w.level.color, c)) && !Flag(w.level, c) {
      HasBlockGrows(s.active, r.active, c, true, w.mask);
    }
  }

  /** Whether a cell is dealt with depends on `w` only through its tiles, its flag and the mask. */
  lemma CoveredSame(w: World, s: World, r: World, c: Cell)
    requires w.level.Valid() && s.level.Valid() && r.level.Valid()
    requires Lookup(s.level.mixed, c) == Lookup(w.level.mixed, c) && s.level.color == w.level.color
    requires s.mask == w.mask && (InGrid(c) ==> Flag(s.level, c) == Flag(w.level, c))
    requires Covered(s, r, c)
    ensures Covered(w, r, c)
  {
  }

  /** The whole scan only takes out mixed tiles and only sets flags. */
  lemma {:induction false} ScanFromNarrows(w: World, cells: seq<Cell>, order: Order)
    requires WellFormed(w)
    ensures Narrows(w, ScanFrom(w, cells, order).world)
    decreases |cells|
  {
    if |cells| > 0 {
      var s := ScanCell(w, cells[0], order);
      ScanCellLocal(w, cells[0], order);
      LocalNarrows(w, s.world, cells[0]);
      if s.fault == None {
        ScanFromNarrows(s.world, cells[1..], order);
        NarrowsTrans(w, s.world, ScanFrom(s.world, cells[1..], order).world);
      }
    }
  }

  /** After a fault-free scan of a list of cells, every listed cell whose tiles are not both full
      grid colliders has been dealt with. */
  lemma {:induction false} ScanFromCovers(w: World, cells: seq<Cell>, order: Order, c: Cell)
    requires WellFormed(w) && c in cells
    requires !FullOverlap(Lookup(w.level.mixed, c), Lookup(w.level.color, c))
    ensures var r := ScanFrom(w, cells, order); r.fault == None ==> Covered(w, r.world, c)
    decreases |cells|
  {
    var s := ScanCell(w, cells[0], order);
    if s.fault == None {
      var r := ScanFrom(s.world, cells[1..], order);
      assert ScanFrom(w, cells, order) == r;
      if r.fault == None {
        if cells[0] == c {
          CoversAtHead(w, cells[1..], order, c);
        } else {
          assert c in cells[1..];
          ScanCellElsewhere(w, cells[0], order, c);
          ScanFromCovers(s.world, cells[1..], order, c);
          CoversPast(w, cells[0], order, r.world, c);
        }
      }
    }
  }

  /** A cell dealt with by its own scan stays dealt with through the scan of the cells after it. */
  lemma CoversAtHead(w: World, rest: seq<Cell>, order: Order, c: Cell)
    requires WellFormed(w) && !FullOverlap(Lookup(w.level.mixed, c), Lookup(w.level.color, c))
    ensures var s := ScanCell(w, c, order);
            s.fault == None && ScanFrom(s.world, rest, order).fault == None ==>
              Covered(w, ScanFrom(s.world, rest, order).world, c)
  {
    var s := ScanCell(w, c, order);
    if s.fault == None {
      var r := ScanFrom(s.world, rest, order);
      ScanCellCovers(w, c, order);
      ScanFromNarrows(s.world, rest, order);
      CoveredStays(w, s.world, r.world, c);
    }
  }

  /** Scanning another cell first does not change what dealing with `c` means. */
  lemma CoversPast(w: World, d: Cell, order: Order, r: World, c: Cell)
    requires WellFormed(w) && d != c
    requires r.level.Valid() && Covered(ScanCell(w, d, order).world, r, c)
    ensures Covered(w, r, c)
  {
    ScanCellElsewhere(w, d, order, c);
    CoveredSame(w, ScanCell(w, d, order).world, r, c);
  }

  /** Scanning cell `d` leaves every other cell's tiles and flag as they were. */
  lemma ScanCellElsewhere(w: World, d: Cell, order: Order, c: Cell)
    requires WellFormed(w) && d != c
    ensures var s := ScanCell(w, d, order).world;
            && Lookup(s.level.mixed, c) == Lookup(w.level.mixed, c)
            && s.level.color == w.level.color && s.mask == w.mask
            && (InGrid(c) ==> Flag(s.level, c) == Flag(w.level, c))
  {
    ScanCellLocal(w, d, order);
    LocalElsewhere(w, ScanCell(w, d, order).world, d, c);
  }

  lemma LocalElsewhere(w: World, s: World, d: Cell, c: Cell)
    requires w.level.Valid() && s.level.Valid() && d != c
    requires s.level.mixed == w.level.mixed || s.level.mixed == w.level.mixed - {d}
    requires || s.level.squares == w.level.squares
             || (InGrid(d) && s.level.squares == WithFlag(w.level, d, true).squares)
    ensures Lookup(s.level.mixed, c) == Lookup(w.level.mixed, c)
    ensures InGrid(c) ==> Flag(s.level, c) == Flag(w.level, c)
  {
    if InGrid(c) && s.level.squares != w.level.squares {
      assert Flag(s.level, c) == Flag(WithFlag(w.level, d, true), c);
    }
  }

  /** Every block `r` binds beyond those of `w` stands at `c`; a grey one only when `grey`, a
      color one only when `color`. */
  predicate BindsOnly(w: World, r: World, c: Cell, grey: bool, color: bool)
  {
    forall i :: |w.active| <= i < |r.active| ==>
      r.active[i].cell == c && (if r.active[i].reversed then color else grey)
  }

  /** No block that `r` binds beyond those of `w` stands at `c` with the given polarity. */
  predicate NoneBoundAt(w: World, r: World, c: Cell, reversed: bool)
  {
    forall i :: |w.active| <= i < |r.active| ==>
      !(r.active[i].cell == c && r.active[i].reversed == reversed)
  }

  lemma BindsOnlyTrans(u: World, v: World, w: World, c: Cell, g1: bool, k1: bool, g2: bool, k2: bool,
                       g: bool, k: bool)
    requires |u.active| <= |v.active| <= |w.active| && w.active[..|v.active|] == v.active
    requires BindsOnly(u, v, c, g1, k1) && BindsOnly(v, w, c, g2, k2)
    requires (g1 || g2 ==> g) && (k1 || k2 ==> k)
    ensures BindsOnly(u, w, c, g, k)
  {
    forall i | |u.active| <= i < |w.active|
      ensures w.active[i].cell == c && (if w.active[i].reversed then k else g)
    {
      if i < |v.active| {
        assert w.active[i] == w.active[..|v.active|][i];
      }
    }
  }

  /** The grey-layer step binds at most one block, a grey one at `c`, and only for a tile in
      reach. */
  lemma GreyStepBinds(w: World, c: Cell, mt: Option<Tile>, order: Order)
    requires WellFormed(w)
    ensures BindsOnly(w, GreyStep(w, c, mt, order).world, c, InReach(w, c, mt), false)
  {
    GreyBinds(w, c, mt, GreyStep(w, c, mt, order));
  }

  lemma GreyBinds(w: World, c: Cell, mt: Option<Tile>, s: Stepped)
    requires |w.active| <= |s.world.active| <= |w.active| + 1
    requires s.fault.Some? ==> |s.world.active| == |w.active|
    requires !InReach(w, c, mt) ==> s == Stepped(w, None)
    requires InReach(w, c, mt) && s.fault == None ==> GreyBound(w, s.world, c, mt.value)
    ensures BindsOnly(w, s.world, c, InReach(w, c, mt), false)
  {
    forall i | |w.active| <= i < |s.world.active|
      ensures s.world.active[i].cell == c && !s.world.active[i].reversed && InReach(w, c, mt)
    {
      assert i == |w.active|;
    }
  }

  /** The color-layer step binds at most one block, a color one at `c`, and only for a wanted
      tile; it never touches the mixed layer. */
  lemma ColorStepBinds(s: World, c: Cell, ct: Option<Tile>, r: Stepped)
    requires WellFormed(s) && ColorOutcome(s, c, ct, r)
    ensures BindsOnly(s, r.world, c, false, ColorWanted(s, c, ct))
  {
    var wanted := ColorWanted(s, c, ct);
    if wanted && InGrid(c) && !Flag(s.level, c) && |s.free| > 0 {
      BoundHeadBinds(s, r.world, c, GetTileEdges(ct.value), true);
      BindsOnlyWeaken(s, r.world, c, false, true, wanted);
    } else {
      ColorStepIdle(s, c, ct, r);
      BindsOnlyRefl(s, c, false, wanted);
    }
  }

  /** Outside the binding case the color-layer step leaves the world alone. */
  lemma ColorStepIdle(s: World, c: Cell, ct: Option<Tile>, r: Stepped)
    requires WellFormed(s) && ColorOutcome(s, c, ct, r)
    requires !(ColorWanted(s, c, ct) && InGrid(c) && !Flag(s.level, c) && |s.free| > 0)
    ensures r.world == s
  {
  }

  lemma BindsOnlyRefl(w: World, c: Cell, g: bool, k: bool)
    ensures BindsOnly(w, w, c, g, k)
  {
  }

  /** The color-layer step keeps the mixed layer, and an unwanted tile changes nothing. */
  lemma ColorStepKeeps(s: World, c: Cell, ct: Option<Tile>, r: Stepped)
    requires WellFormed(s) && ColorOutcome(s, c, ct, r)
    ensures r.world.level.mixed == s.level.mixed
    ensures !ColorWanted(s, c, ct) ==> r.world == s
  {
  }

  /** Binding the head of the free list binds one block, at `c`, of the given polarity. */
  lemma BoundHeadBinds(w: World, r: World, c: Cell, edges: seq<real>, reversed: bool)
    requires BoundHead(w, r, c, edges, reversed)
    ensures BindsOnly(w, r, c, !reversed, reversed)
  {
    forall i | |w.active| <= i < |r.active|
      ensures r.active[i].cell == c && r.active[i].reversed == reversed
    {
      assert i == |w.active|;
    }
  }

  /** A cell's scan changes nothing when neither of its tiles is wanted. */
  lemma ScanCellIdle(w: World, c: Cell, order: Order)
    requires WellFormed(w)
    requires !InReach(w, c, Lookup(w.level.mixed, c)) && !ColorWanted(w, c, Lookup(w.level.color, c))
    ensures ScanCell(w, c, order) == Stepped(w, None)
  {
  }

  /** The converse of `ScanCellGrey` and `ScanCellColor`: one cell's scan binds blocks only at
      `c`, a grey one only for a mixed tile in reach and a color one only for a wanted color tile;
      a mixed tile out of reach stays, and an unwanted color tile leaves every flag alone. */
  lemma ScanCellBinds(w: World, c: Cell, order: Order)
    requires WellFormed(w)
    ensures var mt := Lookup(w.level.mixed, c);
            var ct := Lookup(w.level.color, c);
            var r := ScanCell(w, c, order).world;
            && BindsOnly(w, r, c, InReach(w, c, mt), ColorWanted(w, c, ct))
            && (!InReach(w, c, mt) ==> r.level.mixed == w.level.mixed)
            && (!ColorWanted(w, c, ct) ==> r.level.squares == w.level.squares)
  {
    var mt := Lookup(w.level.mixed, c);
    var ct := Lookup(w.level.color, c);
    if !FullOverlap(mt, ct) {
      var s := GreyStep(w, c, mt, order);
      GreyStepBinds(w, c, mt, order);
      if s.fault.Some? {
        BindsOnlyWeaken(w, s.world, c, InReach(w, c, mt), false, ColorWanted(w, c, ct));
      } else {
        assert ScanCell(w, c, order) == ColorBranch(s.world, c, ct);
        ColorOutcomeOf(s.world, c, ct);
        BindsAfterGrey(w, s.world, c, ct, ColorBranch(s.world, c, ct), InReach(w, c, mt));
      }
    }
  }

  lemma BindsOnlyWeaken(w: World, r: World, c: Cell, g: bool, k: bool, k2: bool)
    requires BindsOnly(w, r, c, g, k) && (k ==> k2)
    ensures BindsOnly(w, r, c, g, k2)
  {
  }

  /** The color-layer step after the grey-layer step binds only what a color tile wanted in the
      world before both steps calls for, and leaves the mixed layer as the grey step left it. */
  lemma BindsAfterGrey(w: World, s: World, c: Cell, ct: Option<Tile>, t: Stepped, g: bool)
    requires WellFormed(s) && Extends(w, s) && BindsOnly(w, s, c, g, false)
    requires ColorOutcome(s, c, ct, t)
    ensures BindsOnly(w, t.world, c, g, ColorWanted(w, c, ct))
    ensures t.world.level.mixed == s.level.mixed
    ensures !ColorWanted(w, c, ct) ==> t.world.level.squares == s.level.squares
  {
    ColorStepBinds(s, c, ct, t);
    ColorStepKeeps(s, c, ct, t);
    assert ColorWanted(s, c, ct) == ColorWanted(w, c, ct);
    BindsOnlyTrans(w, s, t.world, c, g, false, false, ColorWanted(w, c, ct), g, ColorWanted(w, c, ct));
  }

  /** The scan has left the mixed tile at `c` as it was and bound no grey block there. */
  predicate GreySpared(w: World, r: World, c: Cell)
  {
    Lookup(r.level.mixed, c) == Lookup(w.level.mixed, c) && NoneBoundAt(w, r, c, false)
  }

  /** The scan has left the flag at `c` as it was and bound no color block there. */
  predicate ColorSpared(w: World, r: World, c: Cell)
    requires w.level.Valid() && r.level.Valid()
  {
    (InGrid(c) ==> Flag(r.level, c) == Flag(w.level, c)) && NoneBoundAt(w, r, c, true)
  }

  /** Scanning cell `d` spares `c` on a layer unless `d` is `c` and that layer's tile is wanted. */
  lemma SparedStep(w: World, d: Cell, order: Order, c: Cell)
    requires WellFormed(w)
    ensures var s := ScanCell(w, d, order).world;
            && (d != c || !InReach(w, c, Lookup(w.level.mixed, c)) ==> GreySpared(w, s, c))
            && (d != c || !ColorWanted(w, c, Lookup(w.level.color, c)) ==> ColorSpared(w, s, c))
  {
    ScanCellBinds(w, d, order);
    if d != c {
      ScanCellElsewhere(w, d, order, c);
    }
  }

  lemma SparedTrans(u: World, v: World, w: World, c: Cell)
    requires WellFormed(u) && WellFormed(v) && WellFormed(w) && Extends(u, v) && Extends(v, w)
    ensures GreySpared(u, v, c) && GreySpared(v, w, c) ==> GreySpared(u, w, c)
    ensures ColorSpared(u, v, c) && ColorSpared(v, w, c) ==> ColorSpared(u, w, c)
  {
    forall i | |u.active| <= i < |v.active| ensures w.active[i] == v.active[i] {
      assert w.active[i] == w.active[..|v.active|][i];
    }
  }

  /** The converse of `ScanFromCovers`: a cell not in the list, or one whose tile on a layer is
      not wanted, keeps that layer's tile or flag and gets no block of that layer, even when the
      scan stops at an exception. */
  lemma {:induction false} ScanFromSpares(w: World, cells: seq<Cell>, order: Order, c: Cell)
    requires WellFormed(w)
    ensures var r := ScanFrom(w, cells, order).world;
            && (c !in cells || !InReach(w, c, Lookup(w.level.mixed, c)) ==> GreySpared(w, r, c))
            && (c !in cells || !ColorWanted(w, c, Lookup(w.level.color, c)) ==> ColorSpared(w, r, c))
    decreases |cells|
  {
    if |cells| > 0 {
      var s := ScanCell(w, cells[0], order);
      SparedStep(w, cells[0], order, c);
      if s.fault == None {
        var r := ScanFrom(s.world, cells[1..], order);
        assert ScanFrom(w, cells, order) == r;
        assert c !in cells ==> c != cells[0] && c !in cells[1..];
        ScanFromSpares(s.world, cells[1..], order, c);
        SparedTrans(w, s.world, r.world, c);
      }
    }
  }

  /** `UpdateTileColliders` deals with every cell around the mask: unless it throws, each cell of
      the scanned square whose tiles are not both full grid colliders has its in-range mixed tile
      taken out with a grey block bound for it, and its wanted color tile flagged, with a color
      block bound for it if the flag was clear. It only ever takes out mixed tiles and sets
      flags. */
  lemma ScanCovers(w: World, order: Order, c: Cell)
    requires WellFormed(w) && c in ScanCells(w.mask)
    requires !FullOverlap(Lookup(w.level.mixed, c), Lookup(w.level.color, c))
    ensures var r := UpdateTileColliders(w, order);
            Narrows(w, r.world) && (r.fault == None ==> Covered(w, r.world, c))
  {
    ScanFromNarrows(w, ScanCells(w.mask), order);
    ScanFromCovers(w, ScanCells(w.mask), order, c);
  }

  /** The converse of `ScanCovers`: a cell outside the scanned square, or one whose tile on a layer
      is out of reach or unwanted, keeps that layer's tile or flag and gets no block of that
      layer. */
  lemma ScanSpares(w: World, order: Order, c: Cell)
    requires WellFormed(w)
    ensures var r := UpdateTileColliders(w, order).world;
            var outside := c !in ScanCells(w.mask);
            && (outside || !InReach(w, c, Lookup(w.level.mixed, c)) ==> GreySpared(w, r, c))
            && (outside || !ColorWanted(w, c, Lookup(w.level.color, c)) ==> ColorSpared(w, r, c))
  {
    ScanFromSpares(w, ScanCells(w.mask), order, c);
  }

  /** A block that keeps a corner within the mask is still bound, updated, after the updates. */
  lemma HasBlockKept(bs: seq<Block>, c: Cell, reversed: bool, m: Mask)
    requires HasBlock(bs, c, reversed, m)
    ensures HasBlock(KeptOf(bs, m), c, reversed, m)
  {
    var i :| 0 <= i < |bs| && bs[i].cell == c && bs[i].reversed == reversed && UpdateCollider(bs[i], m).Kept?;
    var p := bs[i];
    KeptTo(bs, m, p);
    UpdateTwice(p, m);
    var k := KeptOf(bs, m);
    var j :| 0 <= j < |k| && k[j] == UpdateCollider(p, m).block;
    assert k[j].cell == c && k[j].reversed == reversed && UpdateCollider(k[j], m).Kept?;
  }

  /** Every color block lies inside the flag array. */
  predicate ColorInGrid(bs: seq<Block>)
  {
    forall b :: b in bs ==> (b.reversed ==> InGrid(b.cell))
  }

  /** The blocks that stay bound when each of `bs` updates against the mask: their updated
      versions, in the order given. */
  function KeptOf(bs: seq<Block>, m: Mask): (r: seq<Block>)
    ensures |r| <= |bs|
  {
    if |bs| == 0 then []
    else
      var step := UpdateCollider(bs[0], m);
      if step.Kept? then [step.block] + KeptOf(bs[1..], m) else KeptOf(bs[1..], m)
  }

  /** The ids of the blocks of `bs` that their updates release, in the order given. */
  function ReleasedOf(bs: seq<Block>, m: Mask): (r: seq<BlockId>)
    ensures |r| + |KeptOf(bs, m)| == |bs|
  {
    if |bs| == 0 then []
    else
      if UpdateCollider(bs[0], m).Released? then [bs[0].id] + ReleasedOf(bs[1..], m)
      else ReleasedOf(bs[1..], m)
  }

  lemma Assoc<T>(a: seq<T>, b: seq<T>, c: seq<T>)
    ensures a + b + c == a + (b + c)
  {
  }

  /** A block stays bound exactly when it is the update of a block that keeps a corner within the
      mask. */
  lemma KeptOfMembers(bs: seq<Block>, m: Mask, b: Block)
    ensures b in KeptOf(bs, m) <==> exists p :: p in bs && UpdateCollider(p, m) == Kept(b)
  {
    if b in KeptOf(bs, m) {
      KeptFrom(bs, m, b);
    }
    if exists p :: p in bs && UpdateCollider(p, m) == Kept(b) {
      var p :| p in bs && UpdateCollider(p, m) == Kept(b);
      KeptTo(bs, m, p);
    }
  }

  lemma {:induction false} KeptFrom(bs: seq<Block>, m: Mask, b: Block)
    requires b in KeptOf(bs, m)
    ensures exists p :: p in bs && UpdateCollider(p, m) == Kept(b)
    decreases |bs|
  {
    if UpdateCollider(bs[0], m) != Kept(b) {
      KeptFrom(bs[1..], m, b);
      var p :| p in bs[1..] && UpdateCollider(p, m) == Kept(b);
      assert p in bs;
    }
  }

  lemma {:induction false} KeptTo(bs: seq<Block>, m: Mask, p: Block)
    requires p in bs && UpdateCollider(p, m).Kept?
    ensures UpdateCollider(p, m).block in KeptOf(bs, m)
    decreases |bs|
  {
    if p != bs[0] {
      assert p in bs[1..];
      KeptTo(bs[1..], m, p);
    }
  }

  /** Every bound block's own update, in binding order: the blocks that keep a corner within the
      mask stay bound, updated, in their order; the others are released and their ids join the
      free list's tail in binding order. The grey and color layers do not change. */
  function UpdateEach(l: Level, free: seq<BlockId>, pending: seq<Block>, m: Mask)
    : (r: (Level, seq<BlockId>, seq<Block>))
    requires l.Valid() && ColorInGrid(pending)
    ensures r.0.Valid() && ColorInGrid(r.2)
    ensures r.0.grey == l.grey && r.0.color == l.color
    ensures r.1 == free + ReleasedOf(pending, m)
    ensures r.2 == KeptOf(pending, m)
    ensures forall b :: b in r.2 ==> CornerCount(b.corners) > 0
    decreases |pending|
  {
    if |pending| == 0 then (l, free, [])
    else
      var step := UpdateCollider(pending[0], m);
      var b := step.block;
      assert pending[0] in pending;
      assert ColorInGrid(pending[1..]) by {
        forall x | x in pending[1..] ensures x in pending { }
      }
      if step.Kept? then
        var rest := UpdateEach(l, free, pending[1..], m);
        AllOrNone(b.corners);
        (rest.0, rest.1, [b] + rest.2)
      else
        var d := Disable(l, free, b);
        var rest := UpdateEach(d.0, d.1, pending[1..], m);
        Assoc(free, [b.id], ReleasedOf(pending[1..], m));
        rest
  }

  /** What a released block leaves at its cell: a color block's flag is clear; a grey block's
      cell holds the grey layer's tile again. */
  predicate Undone(l: Level, c: Cell, reversed: bool)
    requires l.Valid()
  {
    if reversed then InGrid(c) && !Flag(l, c) else SameAt(l.mixed, l.grey, c)
  }

  /** Later updates never undo a release: they only release more blocks. */
  lemma {:induction false} UndoneStays(l: Level, free: seq<BlockId>, pending: seq<Block>, m: Mask,
                                       c: Cell, reversed: bool)
    requires l.Valid() && ColorInGrid(pending) && Undone(l, c, reversed)
    ensures Undone(UpdateEach(l, free, pending, m).0, c, reversed)
    decreases |pending|
  {
    if |pending| > 0 {
      assert pending[0] in pending;
      assert ColorInGrid(pending[1..]) by {
        forall x | x in pending[1..] ensures x in pending { }
      }
      var step := UpdateCollider(pending[0], m);
      if step.Kept? {
        UndoneStays(l, free, pending[1..], m, c, reversed);
      } else {
        var d := Disable(l, free, step.block);
        UndoneStays(d.0, d.1, pending[1..], m, c, reversed);
      }
    }
  }

  /** After the updates, every released block's cell is undone: the color flag cleared, or the
      grey tile back in the mixed layer. */
  lemma {:induction false} ReleaseEffect(l: Level, free: seq<BlockId>, pending: seq<Block>, m: Mask,
                                         p: Block)
    requires l.Valid() && ColorInGrid(pending)
    requires p in pending && UpdateCollider(p, m).Released?
    ensures Undone(UpdateEach(l, free, pending, m).0, p.cell, p.reversed)
    decreases |pending|
  {
    assert pending[0] in pending;
    assert ColorInGrid(pending[1..]) by {
      forall x | x in pending[1..] ensures x in pending { }
    }
    var step := UpdateCollider(pending[0], m);
    if p == pending[0] {
      var d := Disable(l, free, step.block);
      UndoneStays(d.0, d.1, pending[1..], m, p.cell, p.reversed);
    } else {
      assert p in pending[1..];
      if step.Kept? {
        ReleaseEffect(l, free, pending[1..], m, p);
      } else {
        var d := Disable(l, free, step.block);
        ReleaseEffect(d.0, d.1, pending[1..], m, p);
      }
    }
  }

  /** A cell where no block is released keeps its mixed tile and its flag. */
  lemma {:induction false} UntouchedCell(l: Level, free: seq<BlockId>, pending: seq<Block>, m: Mask,
                                         c: Cell)
    requires l.Valid() && ColorInGrid(pending)
    requires forall p :: p in pending && p.cell == c ==> UpdateCollider(p, m).Kept?
    ensures var r := UpdateEach(l, free, pending, m).0;
            SameAt(r.mixed, l.mixed, c) && (InGrid(c) ==> Flag(r, c) == Flag(l, c))
    decreases |pending|
  {
    if |pending| > 0 {
      assert pending[0] in pending;
      assert ColorInGrid(pending[1..]) by {
        forall x | x in pending[1..] ensures x in pending { }
      }
      assert forall p :: p in pending[1..] && p.cell == c ==> UpdateCollider(p, m).Kept? by {
        forall p | p in pending[1..] ensures p in pending { }
      }
      var step := UpdateCollider(pending[0], m);
      if step.Kept? {
        UntouchedCell(l, free, pending[1..], m, c);
      } else {
        var d := Disable(l, free, step.block);
        DisableElsewhere(l, free, step.block, c);
        UntouchedCell(d.0, d.1, pending[1..], m, c);
      }
    }
  }

  lemma DisableElsewhere(l: Level, free: seq<BlockId>, b: Block, c: Cell)
    requires l.Valid() && (b.reversed ==> InGrid(b.cell)) && b.cell != c
    ensures var d := Disable(l, free, b).0;
            SameAt(d.mixed, l.mixed, c) && (InGrid(c) ==> Flag(d, c) == Flag(l, c))
  {
  }

  function UpdateBlocks(w: World): (r: World)
    requires WellFormed(w)
    ensures WellFormed(r) && r.mask == w.mask
    ensures r.level.grey == w.level.grey && r.level.color == w.level.color
    ensures |r.free| + |r.active| == |w.free| + |w.active|
    ensures r.active == KeptOf(w.active, w.mask) && r.free == w.free + ReleasedOf(w.active, w.mask)
  {
    var (l, f, a) := UpdateEach(w.level, w.free, w.active, w.mask);
    w.(level := l, free := f, active := a)
  }

  /** One frame: the mask moves to `pos`, the scan runs, then every bound block updates. Only the
      mask's position, the mixed layer, the flags and the blocks change, and the number of free
      and bound blocks together stays the same. */
  function Tick(w: World, pos: Vec, order: Order): (r: Stepped)
    requires WellFormed(w)
    ensures WellFormed(r.world) && r.world.mask == w.mask.(pos := pos)
    ensures r.world.level.grey == w.level.grey && r.world.level.color == w.level.color
    ensures |r.world.free| + |r.world.active| == |w.free| + |w.active|
  {
    var s := UpdateTileColliders(w.(mask := w.mask.(pos := pos)), order);
    Stepped(UpdateBlocks(s.world), s.fault)
  }

  /** One frame deals with every cell around the mask's new position: unless the scan throws,
      each cell of the scanned square whose tiles are not both full grid colliders has, after the
      blocks' own updates, a grey block bound for its in-range mixed tile, and a color block bound
      for its wanted color tile when that tile's flag was clear. */
  lemma TickCovers(w: World, pos: Vec, order: Order, c: Cell)
    requires WellFormed(w) && c in ScanCells(w.mask.(pos := pos))
    requires !FullOverlap(Lookup(w.level.mixed, c), Lookup(w.level.color, c))
    ensures var w1 := w.(mask := w.mask.(pos := pos));
            var r := Tick(w, pos, order);
            r.fault == None ==>
              && (InReach(w1, c, Lookup(w.level.mixed, c)) ==> HasBlock(r.world.active, c, false, w1.mask))
              && (ColorWanted(w1, c, Lookup(w.level.color, c)) ==>
                    InGrid(c) && (!Flag(w.level, c) ==> HasBlock(r.world.active, c, true, w1.mask)))
  {
    var w1 := w.(mask := w.mask.(pos := pos));
    var s := UpdateTileColliders(w1, order);
    ScanCovers(w1, order, c);
    if s.fault == None {
      assert Tick(w, pos, order).world.active == KeptOf(s.world.active, w1.mask);
      if InReach(w1, c, Lookup(w.level.mixed, c)) {
        HasBlockKept(s.world.active, c, false, w1.mask);
      }
      if ColorWanted(w1, c, Lookup(w.level.color, c)) && !Flag(w.level, c) {
        HasBlockKept(s.world.active, c, true, w1.mask);
      }
    }
  }

  /** Start-up: the level's start-up copy, the free list filled, no block bound, and the radius
      set to half the diameter. */
  function Start(grey: map<Cell, Tile>, color: map<Cell, Tile>, mixed: map<Cell, Tile>,
                 diameter: real, pos: Vec): (r: World)
    ensures WellFormed(r) && |r.free| == Capacity && r.active == []
    ensures r.mask.radius * 2.0 == diameter
  {
    World(StartLevel(grey, color, mixed), FillInactiveList(diameter), [], Mask(pos, diameter / 2.0))
  }
}

=== FILE: levels.dfy ===
/**
 The level: three tile layers (grey, color and the working "mixed" layer used for collision)
 and the 31 x 31 grid of color-square flags addressed with an offset of 15.
 An absent map key stands for a null tile.
 */
module Levels {
  import opened Wrappers
  import opened Geometry

  /** A tile's collider type: none, the sprite's physics shape, or the full grid cell. */
  datatype ColliderType = NoCollider | SpriteShape | Grid

  /** The first four vertices of a sprite's physics shape, in the shape's own order. */
  datatype Quad = Quad(v0: Vec, v1: Vec, v2: Vec, v3: Vec)

  datatype Tile = Tile(collider: ColliderType, shape: Quad)

  const GridSize: int := 31
  const GridOffset: int := 15

  datatype Level = Level(grey: map<Cell, Tile>, color: map<Cell, Tile>, mixed: map<Cell, Tile>,
                         squares: seq<seq<bool>>)
  {
    /** The flag array always has its fixed 31 x 31 shape. */
    predicate Valid()
    {
      |squares| == GridSize && forall i :: 0 <= i < |squares| ==> |squares[i]| == GridSize
    }
  }

  /** Cells addressable in the flag array. */
  predicate InGrid(c: Cell)
  {
    -GridOffset <= c.x < GridSize - GridOffset && -GridOffset <= c.y < GridSize - GridOffset
  }

  /** Cells that the start-up copy from the grey layer covers. */
  predicate InStartArea(c: Cell)
  {
    InRect(c, -StartReach, StartReach, -StartReach, StartReach)
  }

  /** Half-width of the start-up copy area. */
  const StartReach: int := 12

  /** Two tile maps agree at one cell (both null, or the same tile). */
  predicate SameAt(m: map<Cell, Tile>, n: map<Cell, Tile>, c: Cell)
  {
    (c in m <==> c in n) && (c in m ==> m[c] == n[c])
  }

  /** A fresh flag array: every flag false, as a new bool[31, 31]. */
  function EmptySquares(): (s: seq<seq<bool>>)
    ensures |s| == GridSize && forall i :: 0 <= i < |s| ==> |s[i]| == GridSize
    ensures forall i, j :: 0 <= i < |s| && 0 <= j < |s[i]| ==> !s[i][j]
  {
    seq(GridSize, _ => seq(GridSize, _ => false))
  }

  /** The flag of a cell inside the grid. */
  function Flag(l: Level, c: Cell): bool
    requires l.Valid() && InGrid(c)
  {
    l.squares[c.x + GridOffset][c.y + GridOffset]
  }

  /** Stores one flag; no other flag and no tile changes. */
  function WithFlag(l: Level, c: Cell, b: bool): (r: Level)
    requires l.Valid() && InGrid(c)
    ensures r.Valid() && Flag(r, c) == b
    ensures forall d :: InGrid(d) && d != c ==> Flag(r, d) == Flag(l, d)
    ensures r.grey == l.grey && r.color == l.color && r.mixed == l.mixed
  {
    var i := c.x + GridOffset;
    var j := c.y + GridOffset;
    l.(squares := l.squares[i := l.squares[i][j := b]])
  }

  /** `CheckForColorSquare`: the flag at (x, y); an index outside the 31 x 31 array throws,
      modelled as `None`. */
  function CheckForColorSquare(l: Level, x: int, y: int): (r: Option<bool>)
    requires l.Valid()
    ensures r.Some? <==> InGrid(Cell(x, y))
    ensures r.Some? ==> r.value == Flag(l, Cell(x, y))
  {
    if InGrid(Cell(x, y)) then Some(Flag(l, Cell(x, y))) else None
  }

  /** `SetColorSquare`: stores a flag inside the grid, throws (`None`) outside it. A later check
      of the same cell answers the stored value; every other cell and every layer is unchanged. */
  function SetColorSquare(l: Level, x: int, y: int, b: bool): (r: Option<Level>)
    requires l.Valid()
    ensures r.Some? <==> InGrid(Cell(x, y))
    ensures r.Some? ==> r.value.Valid() && CheckForColorSquare(r.value, x, y) == Some(b)
    ensures r.Some? ==> forall u, v :: (u, v) != (x, y) ==>
              CheckForColorSquare(r.value, u, v) == CheckForColorSquare(l, u, v)
    ensures r.Some? ==> r.value.grey == l.grey && r.value.color == l.color && r.value.mixed == l.mixed
  {
    if InGrid(Cell(x, y)) then Some(WithFlag(l, Cell(x, y), b)) else None
  }

  /** `PlaceColliderTile`: the mixed layer takes the grey layer's tile at `c` (possibly null);
      nothing else changes. */
  function PlaceColliderTile(l: Level, c: Cell): (r: Level)
    ensures SameAt(r.mixed, l.grey, c)
    ensures forall d :: d != c ==> SameAt(r.mixed, l.mixed, d)
    ensures r.grey == l.grey && r.color == l.color && r.squares == l.squares
  {
    if c in l.grey then l.(mixed := l.mixed[c := l.grey[c]]) else l.(mixed := l.mixed - {c})
  }

  /** A grey tile that the start-up copy places into the mixed layer. */
  predicate BearsCollider(l: Level, c: Cell)
  {
    c in l.grey && l.grey[c].collider != NoCollider
  }

  /** The mixed layer at `c` holds what the start-up copy puts there. */
  predicate MixedFromGrey(l: Level, r: Level, c: Cell)
  {
    (c in r.mixed <==> BearsCollider(l, c)) && (c in r.mixed ==> r.mixed[c] == l.grey[c])
  }

  /** One cell of `GenerateMixedColliders`: clear the flag, then copy a collider-bearing grey
      tile or leave the mixed cell null. */
  function GenerateCell(l: Level, c: Cell): (r: Level)
    requires l.Valid() && InGrid(c)
    ensures r.Valid() && r.grey == l.grey && r.color == l.color
    ensures !Flag(r, c) && MixedFromGrey(l, r, c)
    ensures forall d :: d != c ==> SameAt(r.mixed, l.mixed, d)
    ensures forall d :: d != c && InGrid(d) ==> Flag(r, d) == Flag(l, d)
  {
    var l1 := WithFlag(l, c, false);
    if c !in l1.grey then l1.(mixed := l1.mixed - {c})
    else if l1.grey[c].collider == NoCollider then l1.(mixed := l1.mixed - {c})
    else PlaceColliderTile(l1, c)
  }

  /** The start-up copy over a list of cells, in list order. */
  function GenerateOver(l: Level, cells: seq<Cell>): (r: Level)
    requires l.Valid() && forall c :: c in cells ==> InGrid(c)
    ensures r.Valid() && r.grey == l.grey && r.color == l.color
    ensures forall c :: c in cells ==> !Flag(r, c) && MixedFromGrey(l, r, c)
    ensures forall c :: c !in cells ==> SameAt(r.mixed, l.mixed, c)
    ensures forall c :: c !in cells && InGrid(c) ==> Flag(r, c) == Flag(l, c)
    decreases |cells|
  {
    if |cells| == 0 then l
    else
      var l1 := GenerateCell(l, cells[0]);
      assert forall c :: c in cells <==> c == cells[0] || c in cells[1..];
      GenerateOver(l1, cells[1..])
  }

  /** `GenerateMixedColliders`: over [-12, 12] x [-12, 12] every flag is cleared and the mixed
      layer holds exactly the collider-bearing grey tiles; cells outside are left alone. */
  function GenerateMixedColliders(l: Level): (r: Level)
    requires l.Valid()
    ensures r.Valid() && r.grey == l.grey && r.color == l.color
    ensures forall c :: InStartArea(c) ==> !Flag(r, c) && MixedFromGrey(l, r, c)
    ensures forall c :: !InStartArea(c) ==> SameAt(r.mixed, l.mixed, c)
    ensures forall c :: !InStartArea(c) && InGrid(c) ==> Flag(r, c) == Flag(l, c)
  {
    RectContents(-StartReach, StartReach, -StartReach, StartReach);
    GenerateOver(l, Rect(-StartReach, StartReach, -StartReach, StartReach))
  }

  /** A level as loaded: the three layers from the scene and a fresh flag array, followed by the
      start-up copy. No flag is set anywhere afterwards. */
  function StartLevel(grey: map<Cell, Tile>, color: map<Cell, Tile>, mixed: map<Cell, Tile>): (r: Level)
    ensures r.Valid() && r.grey == grey && r.color == color
    ensures forall c :: InGrid(c) ==> !Flag(r, c)
  {
    GenerateMixedColliders(Level(grey, color, mixed, EmptySquares()))
  }

  /** Clearing a cell that the start-up copy filled and then placing its collider tile back gives
      the mixed layer it had before. */
  lemma RestoreRoundTrip(l0: Level, c: Cell)
    requires l0.Valid() && InStartArea(c) && BearsCollider(l0, c)
    ensures var l := GenerateMixedColliders(l0);
            PlaceColliderTile(l.(mixed := l.mixed - {c}), c).mixed == l.mixed
  {
    var l := GenerateMixedColliders(l0);
    var back := PlaceColliderTile(l.(mixed := l.mixed - {c}), c).mixed;
    assert forall d :: SameAt(back, l.mixed, d);
  }
}

=== FILE: partial_block.dfy ===
/**
 A partial block: a pooled edge collider bound to one cell. Each frame it classifies the four
 corners of its tile against the mask and either goes back to the pool, hides its collider, or
 rebuilds a clockwise outline of the solid part of the tile.

 The points where the mask's circle crosses a tile edge are kept symbolic (`Crossing(side)`):
 only which edge is crossed matters to the logic here.
 */
module PartialBlocks {
  import opened Geometry
  import opened Levels
  import opened BlockPool

  /** A tile's extent as offsets from the cell centre. */
  datatype Bounds = Bounds(top: real, bottom: real, left: real, right: real)

  datatype CornerKind = TopLeft | TopRight | BottomRight | BottomLeft

  datatype Side = TopSide | RightSide | BottomSide | LeftSide

  /** Which corners lie within the mask. */
  datatype Corners = Corners(topLeft: bool, topRight: bool, bottomRight: bool, bottomLeft: bool)
  {
    function Get(k: CornerKind): bool
    {
      match k
      case TopLeft => topLeft
      case TopRight => topRight
      case BottomRight => bottomRight
      case BottomLeft => bottomLeft
    }
  }

  /** A point of a collider outline, relative to the cell centre: a tile corner (with its
      coordinates) or the mask's crossing of one tile edge. */
  datatype Vertex = CornerPoint(corner: CornerKind, at: Vec) | Crossing(side: Side)

  datatype Collider = Collider(enabled: bool, points: seq<Vertex>)

  /** `reversed` is false for a block standing in for a grey (mixed-layer) tile and true for a
      block standing in for a color tile. */
  datatype Block = Block(id: BlockId, cell: Cell, bounds: Bounds, reversed: bool,
                         corners: Corners, collider: Collider)

  /** Corner flags and how many of them are set. */
  datatype Classification = Classification(corners: Corners, count: nat)

  /** What one collider update leaves: the block back for the pool, or still bound. */
  datatype Step = Released(block: Block) | Kept(block: Block)

  /** `SetEdges`: the edge array is read as top, bottom, left, right. */
  function SetEdges(edges: seq<real>): (b: Bounds)
    requires |edges| >= 4
    ensures [b.top, b.bottom, b.left, b.right] == edges[..4]
  {
    Bounds(edges[0], edges[1], edges[2], edges[3])
  }

  /** A corner's offset from the cell centre. */
  function Offset(b: Bounds, k: CornerKind): Vec
  {
    match k
    case TopLeft => Vec(b.left, b.top)
    case TopRight => Vec(b.right, b.top)
    case BottomRight => Vec(b.right, b.bottom)
    case BottomLeft => Vec(b.left, b.bottom)
  }

  /** The two corners an edge runs between. */
  function Ends(s: Side): (CornerKind, CornerKind)
  {
    match s
    case TopSide => (TopLeft, TopRight)
    case RightSide => (TopRight, BottomRight)
    case BottomSide => (BottomLeft, BottomRight)
    case LeftSide => (TopLeft, BottomLeft)
  }

  function Bit(b: bool): nat
  {
    if b then 1 else 0
  }

  /** `CountCorners`: each flag says whether that corner (cell centre plus offset) lies within the
      mask's radius, and the count is how many flags are set. */
  function CountCorners(center: Vec, b: Bounds, m: Mask): (r: Classification)
    ensures forall k :: r.corners.Get(k) == WithinRadius(Add(center, Offset(b, k)), m.pos, m.radius)
    ensures r.count <= 4 && r.count == CornerCount(r.corners)
    ensures r.count == 0 <==> forall k :: !r.corners.Get(k)
    ensures r.count == 4 <==> forall k :: r.corners.Get(k)
  {
    var bottomLeft := WithinRadius(Vec(center.x + b.left, center.y + b.bottom), m.pos, m.radius);
    var bottomRight := WithinRadius(Vec(center.x + b.right, center.y + b.bottom), m.pos, m.radius);
    var topLeft := WithinRadius(Vec(center.x + b.left, center.y + b.top), m.pos, m.radius);
    var topRight := WithinRadius(Vec(center.x + b.right, center.y + b.top), m.pos, m.radius);
    var corners := Corners(topLeft, topRight, bottomRight, bottomLeft);
    assert forall k :: corners.Get(k) == WithinRadius(Add(center, Offset(b, k)), m.pos, m.radius);
    AllOrNone(corners);
    Classification(corners, Bit(bottomLeft) + Bit(bottomRight) + Bit(topLeft) + Bit(topRight))
  }

  /** Number of set flags, counted in the same order as the program counts them. */
  function CornerCount(c: Corners): nat
  {
    Bit(c.bottomLeft) + Bit(c.bottomRight) + Bit(c.topLeft) + Bit(c.topRight)
  }

  lemma AllOrNone(c: Corners)
    ensures (forall k :: c.Get(k)) <==> c.topLeft && c.topRight && c.bottomRight && c.bottomLeft
    ensures (forall k :: !c.Get(k)) <==> !c.topLeft && !c.topRight && !c.bottomRight && !c.bottomLeft
  {
    assert c.Get(TopLeft) == c.topLeft && c.Get(TopRight) == c.topRight;
    assert c.Get(BottomRight) == c.bottomRight && c.Get(BottomLeft) == c.bottomLeft;
  }

  /** Position of a vertex in the clockwise walk top-left, top edge, top-right, right edge,
      bottom-right, bottom edge, bottom-left, left edge. */
  function Rank(v: Vertex): (n: nat)
    ensures n < 8
  {
    match v
    case CornerPoint(k, _) =>
      (match k
       case TopLeft => 0
       case TopRight => 2
       case BottomRight => 4
       case BottomLeft => 6)
    case Crossing(s) =>
      (match s
       case TopSide => 1
       case RightSide => 3
       case BottomSide => 5
       case LeftSide => 7)
  }

  /** The candidate vertex at each position of the clockwise walk. */
  function Slot(b: Bounds, n: nat): (v: Vertex)
    requires n < 8
    ensures Rank(v) == n
  {
    if n == 0 then CornerPoint(TopLeft, Offset(b, TopLeft))
    else if n == 1 then Crossing(TopSide)
    else if n == 2 then CornerPoint(TopRight, Offset(b, TopRight))
    else if n == 3 then Crossing(RightSide)
    else if n == 4 then CornerPoint(BottomRight, Offset(b, BottomRight))
    else if n == 5 then Crossing(BottomSide)
    else if n == 6 then CornerPoint(BottomLeft, Offset(b, BottomLeft))
    else Crossing(LeftSide)
  }

  /** A corner belongs to the solid outline when its flag equals the block's polarity; an edge
      crossing belongs to it when the edge's two corners disagree. */
  predicate Wanted(v: Vertex, c: Corners, reversed: bool)
  {
    match v
    case CornerPoint(k, _) => c.Get(k) == reversed
    case Crossing(s) =>
      var (p, q) := Ends(s);
      (c.Get(p) && !c.Get(q)) || (c.Get(q) && !c.Get(p))
  }

  /** A corner vertex carries its own corner's coordinates. */
  predicate AtOwnOffset(b: Bounds, v: Vertex)
  {
    v.CornerPoint? ==> v.at == Offset(b, v.corner)
  }

  /** Strictly clockwise: every vertex comes after the previous one in the walk. */
  predicate Clockwise(r: seq<Vertex>)
  {
    forall i, j :: 0 <= i < j < |r| ==> Rank(r[i]) < Rank(r[j])
  }

  /** The wanted candidates from position `n` of the walk onwards, in walk order. */
  function PointsFrom(b: Bounds, c: Corners, reversed: bool, n: nat): (r: seq<Vertex>)
    requires n <= 8
    ensures Clockwise(r)
    ensures forall v :: v in r ==> n <= Rank(v) < 8 && Wanted(v, c, reversed) && AtOwnOffset(b, v)
    ensures forall k :: n <= k < 8 && Wanted(Slot(b, k), c, reversed) ==> Slot(b, k) in r
    decreases 8 - n
  {
    if n == 8 then []
    else
      var rest := PointsFrom(b, c, reversed, n + 1);
      if Wanted(Slot(b, n), c, reversed) then [Slot(b, n)] + rest else rest
  }

  /** `GetPoints`: the collider outline in clockwise order. A corner appears exactly when its flag
      equals `reversed`, at its own offset; an edge crossing appears exactly when the edge's two
      corner flags differ; nothing else appears and nothing appears twice. */
  function GetPoints(b: Bounds, c: Corners, reversed: bool): (r: seq<Vertex>)
    ensures Clockwise(r)
    ensures forall k :: CornerPoint(k, Offset(b, k)) in r <==> c.Get(k) == reversed
    ensures forall s :: Crossing(s) in r <==> c.Get(Ends(s).0) != c.Get(Ends(s).1)
    ensures forall v :: v in r && v.CornerPoint? ==> v.at == Offset(b, v.corner)
  {
    var r := PointsFrom(b, c, reversed, 0);
    forall k ensures CornerPoint(k, Offset(b, k)) in r <==> c.Get(k) == reversed {
      SlotOfCorner(b, k);
    }
    forall s ensures Crossing(s) in r <==> c.Get(Ends(s).0) != c.Get(Ends(s).1) {
      SlotOfSide(b, s);
    }
    r
  }

  lemma SlotOfCorner(b: Bounds, k: CornerKind)
    ensures Slot(b, Rank(CornerPoint(k, Offset(b, k)))) == CornerPoint(k, Offset(b, k))
  {
  }

  lemma SlotOfSide(b: Bounds, s: Side)
    ensures Slot(b, Rank(Crossing(s))) == Crossing(s)
  {
  }

  /** Number of corners whose flag matches the polarity. */
  function CornersKept(c: Corners, reversed: bool): nat
  {
    Bit(c.topLeft == reversed) + Bit(c.topRight == reversed)
    + Bit(c.bottomRight == reversed) + Bit(c.bottomLeft == reversed)
  }

  /** Number of edges whose two corner flags differ. */
  function SidesCrossed(c: Corners): nat
  {
    Bit(c.topLeft != c.topRight) + Bit(c.topRight != c.bottomRight)
    + Bit(c.bottomRight != c.bottomLeft) + Bit(c.bottomLeft != c.topLeft)
  }

  function WantedAt(b: Bounds, c: Corners, reversed: bool, n: nat): nat
    requires n < 8
  {
    Bit(Wanted(Slot(b, n), c, reversed))
  }

  lemma PointsFromStep(b: Bounds, c: Corners, reversed: bool, n: nat)
    requires n < 8
    ensures |PointsFrom(b, c, reversed, n)| == WantedAt(b, c, reversed, n) + |PointsFrom(b, c, reversed, n + 1)|
    ensures PointsFrom(b, c, reversed, n) == if Wanted(Slot(b, n), c, reversed)
                                             then [Slot(b, n)] + PointsFrom(b, c, reversed, n + 1)
                                             else PointsFrom(b, c, reversed, n + 1)
  {
  }

  lemma WantedValues(b: Bounds, c: Corners, reversed: bool)
    ensures WantedAt(b, c, reversed, 0) + WantedAt(b, c, reversed, 2)
            + WantedAt(b, c, reversed, 4) + WantedAt(b, c, reversed, 6) == CornersKept(c, reversed)
    ensures WantedAt(b, c, reversed, 1) + WantedAt(b, c, reversed, 3)
            + WantedAt(b, c, reversed, 5) + WantedAt(b, c, reversed, 7) == SidesCrossed(c)
  {
  }

  /** The outline has one vertex per kept corner and one per crossed edge. */
  lemma PointsCount(b: Bounds, c: Corners, reversed: bool)
    ensures |GetPoints(b, c, reversed)| == CornersKept(c, reversed) + SidesCrossed(c)
  {
    FirstHalf(b, c, reversed);
    SecondHalf(b, c, reversed);
    WantedValues(b, c, reversed);
  }

  lemma FirstHalf(b: Bounds, c: Corners, reversed: bool)
    ensures |PointsFrom(b, c, reversed, 0)| == WantedAt(b, c, reversed, 0) + WantedAt(b, c, reversed, 1)
              + WantedAt(b, c, reversed, 2) + WantedAt(b, c, reversed, 3) + |PointsFrom(b, c, reversed, 4)|
  {
    PointsFromStep(b, c, reversed, 0);
    PointsFromStep(b, c, reversed, 1);
    PointsFromStep(b, c, reversed, 2);
    PointsFromStep(b, c, reversed, 3);
  }

  lemma SecondHalf(b: Bounds, c: Corners, reversed: bool)
    ensures |PointsFrom(b, c, reversed, 4)| == WantedAt(b, c, reversed, 4) + WantedAt(b, c, reversed, 5)
              + WantedAt(b, c, reversed, 6) + WantedAt(b, c, reversed, 7)
  {
    PointsFromStep(b, c, reversed, 4);
    PointsFromStep(b, c, reversed, 5);
    PointsFromStep(b, c, reversed, 6);
    PointsFromStep(b, c, reversed, 7);
  }

  /** Going round the four edges the corner flags change an even number of times. */
  lemma CrossingsEven(c: Corners)
    ensures SidesCrossed(c) == 0 || SidesCrossed(c) == 2 || SidesCrossed(c) == 4
  {
  }

  /** Whenever `UpdateCollider` builds an outline, it has between three and six vertices. */
  lemma PointsReached(b: Bounds, c: Corners, reversed: bool)
    requires CornerCount(c) != 0 && (reversed || CornerCount(c) != 4)
    ensures 3 <= |GetPoints(b, c, reversed)| <= 6
  {
    PointsCount(b, c, reversed);
  }

  /** A color block whose tile lies wholly within the mask gets the tile's four corners,
      clockwise from the top-left. */
  lemma FullColorSquare(b: Bounds, c: Corners)
    requires c.topLeft && c.topRight && c.bottomRight && c.bottomLeft
    ensures GetPoints(b, c, true) == [CornerPoint(TopLeft, Vec(b.left, b.top)),
                                      CornerPoint(TopRight, Vec(b.right, b.top)),
                                      CornerPoint(BottomRight, Vec(b.right, b.bottom)),
                                      CornerPoint(BottomLeft, Vec(b.left, b.bottom))]
  {
    SecondFull(b, c);
    FirstFull(b, c);
    CornerSlots(b);
    assert PointsFrom(b, c, true, 0) == [Slot(b, 0), Slot(b, 2)] + [Slot(b, 4), Slot(b, 6)];
  }

  lemma FirstFull(b: Bounds, c: Corners)
    requires c.topLeft && c.topRight && c.bottomRight && c.bottomLeft
    ensures PointsFrom(b, c, true, 0) == [Slot(b, 0), Slot(b, 2)] + PointsFrom(b, c, true, 4)
  {
    CornerThenSkip(b, c, 0);
    CornerThenSkip(b, c, 2);
    ConsTwo(Slot(b, 0), Slot(b, 2), PointsFrom(b, c, true, 4));
  }

  lemma ConsTwo<T>(x: T, y: T, tail: seq<T>)
    ensures [x] + ([y] + tail) == [x, y] + tail
  {
  }

  /** With every corner inside, a reversed block keeps the corner at `n` and skips the
      crossing after it. */
  lemma CornerThenSkip(b: Bounds, c: Corners, n: nat)
    requires c.topLeft && c.topRight && c.bottomRight && c.bottomLeft
    requires n == 0 || n == 2
    ensures PointsFrom(b, c, true, n) == [Slot(b, n)] + PointsFrom(b, c, true, n + 2)
  {
    FullWanted(b, c);
    PointsFromStep(b, c, true, n);
    PointsFromStep(b, c, true, n + 1);
  }

  /** With every corner inside, exactly the corners are wanted in a reversed block. */
  lemma FullWanted(b: Bounds, c: Corners)
    requires c.topLeft && c.topRight && c.bottomRight && c.bottomLeft
    ensures Wanted(Slot(b, 0), c, true) && !Wanted(Slot(b, 1), c, true)
    ensures Wanted(Slot(b, 2), c, true) && !Wanted(Slot(b, 3), c, true)
    ensures Wanted(Slot(b, 4), c, true) && !Wanted(Slot(b, 5), c, true)
    ensures Wanted(Slot(b, 6), c, true) && !Wanted(Slot(b, 7), c, true)
  {
  }

  lemma CornerSlots(b: Bounds)
    ensures [Slot(b, 0), Slot(b, 2), Slot(b, 4), Slot(b, 6)]
            == [CornerPoint(TopLeft, Vec(b.left, b.top)), CornerPoint(TopRight, Vec(b.right, b.top)),
                CornerPoint(BottomRight, Vec(b.right, b.bottom)), CornerPoint(BottomLeft, Vec(b.left, b.bottom))]
  {
  }

  lemma SecondFull(b: Bounds, c: Corners)
    requires c.topLeft && c.topRight && c.bottomRight && c.bottomLeft
    ensures PointsFrom(b, c, true, 4) == [Slot(b, 4), Slot(b, 6)]
  {
    FullWanted(b, c);
    PointsFromStep(b, c, true, 7);
    PointsFromStep(b, c, true, 6);
    PointsFromStep(b, c, true, 5);
    PointsFromStep(b, c, true, 4);
    assert PointsFrom(b, c, true, 7) == [];
    assert PointsFrom(b, c, true, 6) == [Slot(b, 6)] + [];
    assert PointsFrom(b, c, true, 4) == [Slot(b, 4)] + [Slot(b, 6)];
  }

  /** An outline closed by repeating its first point. */
  predicate Closed(points: seq<Vertex>)
  {
    |points| >= 2 && points[|points| - 1] == points[0]
  }

  /** `GenerateCollider`: the collider's point array is the outline followed by its first point
      again; dropping that last point gives the outline back. An empty outline throws in the
      program. */
  function GenerateCollider(points: seq<Vertex>): (r: seq<Vertex>)
    requires |points| > 0
    ensures |r| == |points| + 1 && Closed(r)
    ensures r[..|points|] == points
  {
    points + [points[0]]
  }

  /** `UpdateCollider`: classify the corners, then release the block when no corner is within
      the mask, hide a grey block's collider when all four are, and otherwise enable a collider
      along the closed outline. Identity, cell, bounds and polarity never change; a hidden
      collider keeps its previous points. */
  function UpdateCollider(b: Block, m: Mask): (r: Step)
    ensures r.block.id == b.id && r.block.cell == b.cell
    ensures r.block.bounds == b.bounds && r.block.reversed == b.reversed
    ensures forall k :: r.block.corners.Get(k) ==
              WithinRadius(Add(CellCenter(b.cell), Offset(b.bounds, k)), m.pos, m.radius)
    ensures r.Released? <==> forall k :: !r.block.corners.Get(k)
    ensures r.Released? ==> r.block.collider == b.collider
    ensures (r.Kept? && !r.block.collider.enabled) <==>
              (!b.reversed && forall k :: r.block.corners.Get(k))
    ensures r.Kept? && !r.block.collider.enabled ==> r.block.collider.points == b.collider.points
    ensures r.Kept? && r.block.collider.enabled ==>
              var p := r.block.collider.points;
              Closed(p) && 4 <= |p| <= 7
              && p[..|p| - 1] == GetPoints(b.bounds, r.block.corners, b.reversed)
  {
    var cls := CountCorners(CellCenter(b.cell), b.bounds, m);
    var b1 := b.(corners := cls.corners);
    if cls.count == 0 then
      Released(b1)
    else if !b.reversed && cls.count == 4 then
      Kept(b1.(collider := b1.collider.(enabled := false)))
    else
      PointsReached(b.bounds, cls.corners, b.reversed);
      Kept(b1.(collider := Collider(true, GenerateCollider(GetPoints(b.bounds, cls.corners, b.reversed)))))
  }

  /** Updating a block that stays bound a second time against the same mask changes nothing more:
      the program may update a freshly bound block twice in one frame. */
  lemma UpdateTwice(b: Block, m: Mask)
    requires UpdateCollider(b, m).Kept?
    ensures UpdateCollider(UpdateCollider(b, m).block, m) == UpdateCollider(b, m)
  {
  }

  /** `Disable`: a color block clears its cell's color-square flag, a grey block puts the grey
      tile back into the mixed layer; either way the block joins the tail of the free list and
      nothing else changes. */
  function Disable(l: Level, free: seq<BlockId>, b: Block): (r: (Level, seq<BlockId>))
    requires l.Valid() && (b.reversed ==> InGrid(b.cell))
    ensures r.0.Valid() && r.0.grey == l.grey && r.0.color == l.color
    ensures r.1 == SetBlockInactive(free, b.id)
    ensures b.reversed ==> r.0.mixed == l.mixed && !Flag(r.0, b.cell)
    ensures b.reversed ==> forall d :: InGrid(d) && d != b.cell ==> Flag(r.0, d) == Flag(l, d)
    ensures !b.reversed ==> r.0.squares == l.squares && SameAt(r.0.mixed, l.grey, b.cell)
    ensures !b.reversed ==> forall d :: d != b.cell ==> SameAt(r.0.mixed, l.mixed, d)
  {
    var l1 := if b.reversed then SetColorSquare(l, b.cell.x, b.cell.y, false).value
              else PlaceColliderTile(l, b.cell);
    (l1, SetBlockInactive(free, b.id))
  }
}

=== FILE: sprite_animator.dfy ===
/**
 The sprite animator: a frame sequence played at a fixed frame duration, once or on repeat, with
 indefinite and timed pauses. Sprites are named by their index in the sprite sheet; the grey and
 the color renderer always show the same index. Time is an accumulated `real`.
 */
module SpriteAnimation {
  import opened Wrappers

  /** A frame sequence: an array of sprite indices. `ref` stands for the array's identity, which is
      what the program compares when asked to start an animation that may already be running. */
  datatype Clip = Clip(ref: nat, frames: seq<int>)

  datatype Animator = Animator(
    sheetSize: nat,          // the number of sprites in the sheet
    shown: Option<int>,      // the sprite index both renderers show; None before the first set
    animating: bool,
    repeat: bool,
    flipX: bool,
    sequence: Option<Clip>,
    currentFrame: nat,
    frameDuration: real,
    currentFrameTime: real,
    paused: bool,
    pauseDuration: real)

  /** The result of a call, and whether it ended in an exception (the fields it had already
      written keep their new values). */
  datatype Ran = Ran(a: Animator, threw: bool)

  /** The animator as the scene creates it: the fields' default values, then `Start`. */
  function Init(sheetSize: nat): (r: Animator)
    ensures r.sheetSize == sheetSize && r.shown == None && r.sequence == None
    ensures !r.animating && !r.paused && Sound(r) && Ready(r)
  {
    Animator(sheetSize, None, false, false, false, None, 0, 0.0, 0.0, false, 0.0)
  }

  /** Nothing starts an animation without a sequence. */
  predicate Sound(a: Animator)
  {
    a.animating ==> a.sequence.Some?
  }

  /** A running animation is on a frame of its sequence. */
  predicate Ready(a: Animator)
  {
    a.animating ==> a.sequence.Some? && a.currentFrame < |a.sequence.value.frames|
  }

  /** Everything but the shown sprite agrees. */
  predicate SameButShown(a: Animator, b: Animator)
  {
    a.(shown := b.shown) == b
  }

  /** `SetSprite`: both renderers show sprite `i`, unless no sequence was ever started or `i` is
      outside the sprite sheet, in which case nothing changes. */
  function SetSprite(a: Animator, i: int): (r: Animator)
    ensures SameButShown(a, r)
    ensures a.sequence.Some? && 0 <= i < a.sheetSize ==> r.shown == Some(i)
    ensures !(a.sequence.Some? && 0 <= i < a.sheetSize) ==> r == a
  {
    if a.sequence.None? then a
    else if i < 0 || i >= a.sheetSize then a
    else a.(shown := Some(i))
  }

  /** What `StartAnimation` shows first: the first frame's sprite, if it is in the sheet. */
  predicate ShowsFrame(a: Animator, before: Animator, frame: int)
  {
    a.shown == (if 0 <= frame < a.sheetSize then Some(frame) else before.shown)
  }

  /** A call that finds this animation already running is ignored; `repeat` is not compared. */
  predicate AlreadyRunning(a: Animator, s: Option<Clip>, duration: real, flip: bool)
  {
    a.animating && s == a.sequence && duration == a.frameDuration && flip == a.flipX
  }

  /** `StartAnimation`. Ignored when the same animation is already running or when the sequence is
      null. Otherwise the animation restarts from frame 0 with the new settings; a pause in force
      stays in force. An empty sequence throws on its first frame after the sequence, duration,
      repeat flag and frame counters are stored, leaving `animating` and `flipX` as they were. */
  function StartAnimation(a: Animator, s: Option<Clip>, duration: real, rep: bool, flip: bool): (r: Ran)
    ensures AlreadyRunning(a, s, duration, flip) || s.None? ==> r == Ran(a, false)
    ensures !AlreadyRunning(a, s, duration, flip) && s.Some? ==>
              && r.a.sequence == s && r.a.frameDuration == duration && r.a.repeat == rep
              && r.a.currentFrame == 0 && r.a.currentFrameTime == 0.0
              && r.a.paused == a.paused && r.a.pauseDuration == a.pauseDuration
              && r.a.sheetSize == a.sheetSize
              && (r.threw <==> |s.value.frames| == 0)
              && (r.threw ==> r.a.animating == a.animating && r.a.flipX == a.flipX && r.a.shown == a.shown)
              && (!r.threw ==> r.a.animating && r.a.flipX == flip && ShowsFrame(r.a, a, s.value.frames[0]))
    ensures Sound(a) ==> Sound(r.a)
    ensures Ready(a) && !r.threw ==> Ready(r.a)
  {
    if AlreadyRunning(a, s, duration, flip) then Ran(a, false)
    else if s.None? then Ran(a, false)
    else
      var a1 := a.(sequence := s, frameDuration := duration, repeat := rep,
                   currentFrame := 0, currentFrameTime := 0.0);
      if |s.value.frames| == 0 then Ran(a1, true)
      else
        var a2 := SetSprite(a1, s.value.frames[0]);
        Ran(a2.(flipX := flip, animating := true), false)
  }

  /** `StopAnimation()`: the animation stops on the frame it shows; timing and pause are
      cleared; the frame index, sequence and sprite stay. */
  function StopAnimation(a: Animator): (r: Animator)
    ensures !r.animating && !r.paused && r.pauseDuration == 0.0
    ensures r.frameDuration == 0.0 && r.currentFrameTime == 0.0
    ensures r.currentFrame == a.currentFrame && r.sequence == a.sequence && r.shown == a.shown
    ensures r.repeat == a.repeat && r.flipX == a.flipX && r.sheetSize == a.sheetSize
    ensures Sound(r) && Ready(r)
  {
    a.(animating := false, frameDuration := 0.0, currentFrameTime := 0.0,
       paused := false, pauseDuration := 0.0)
  }

  /** `StopAnimation(stopSprite)`: stops, then shows the given sprite if the sheet has it. */
  function StopAnimationWith(a: Animator, stopSprite: int): (r: Animator)
    ensures SameButShown(StopAnimation(a), r)
    ensures a.sequence.Some? && 0 <= stopSprite < a.sheetSize ==> r.shown == Some(stopSprite)
    ensures !(a.sequence.Some? && 0 <= stopSprite < a.sheetSize) ==> r.shown == a.shown
  {
    SetSprite(StopAnimation(a), stopSprite)
  }

  /** `StopAnimationOnFirst` and `StopAnimationOnLast`: a running animation stops showing its first
      (or last) frame. A stopped one is left alone; an empty sequence throws after the stop. */
  function StopAnimationOn(a: Animator, last: bool): (r: Ran)
    ensures !a.animating ==> r == Ran(a, false)
    ensures a.animating && Sound(a) ==> SameButShown(StopAnimation(a), r.a)
    ensures a.animating && Ready(a) ==>
              var fs := a.sequence.value.frames;
              !r.threw && ShowsFrame(r.a, a, if last then fs[|fs| - 1] else fs[0])
    ensures Sound(r.a) && Ready(r.a)
  {
    if !a.animating then Ran(a, false)
    else
      var a1 := StopAnimation(a);
      if a1.sequence.None? then Ran(a1, true)
      else
        var fs := a1.sequence.value.frames;
        if |fs| == 0 then Ran(a1, true)
        else Ran(SetSprite(a1, if last then fs[|fs| - 1] else fs[0]), false)
  }

  /** `PauseAnimation()` and `PauseAnimation(duration)`: a running animation pauses, indefinitely
      (duration 0) or for the given time; a stopped one is left alone. */
  function PauseAnimation(a: Animator, duration: real): (r: Animator)
    ensures !a.animating ==> r == a
    ensures a.animating ==> r == a.(paused := true, pauseDuration := duration)
  {
    if !a.animating then a else a.(paused := true, pauseDuration := duration)
  }

  /** `UnpauseAnimation`: clears the pause, whether or not one was in force. */
  function UnpauseAnimation(a: Animator): (r: Animator)
    ensures !r.paused && r.pauseDuration == 0.0
    ensures r.(paused := a.paused, pauseDuration := a.pauseDuration) == a
  {
    a.(paused := false, pauseDuration := 0.0)
  }

  /** `SetFrameDuration`: only the frame duration changes, even when nothing is animating. */
  function SetFrameDuration(a: Animator, duration: real): (r: Animator)
    ensures r.frameDuration == duration && r.(frameDuration := a.frameDuration) == a
  {
    a.(frameDuration := duration)
  }

  /** `IncrementFrame`: the next frame; past the last one a repeating animation wraps to frame 0
      and a single-shot one stops without changing the sprite (its frame index is left one past
      the end). A frame that is shown restarts the frame time. */
  function IncrementFrame(a: Animator): (r: Ran)
    ensures Sound(a) ==> Sound(r.a)
    ensures Ready(a) && a.animating ==>
              var n := |a.sequence.value.frames|;
              && !r.threw && r.a.sequence == a.sequence && r.a.repeat == a.repeat
              && r.a.sheetSize == a.sheetSize && r.a.flipX == a.flipX
              && (a.currentFrame + 1 < n || a.repeat ==>
                    && r.a.animating && r.a.currentFrame == (if a.currentFrame + 1 < n then a.currentFrame + 1 else 0)
                    && r.a.currentFrameTime == 0.0
                    && r.a.paused == a.paused && r.a.pauseDuration == a.pauseDuration
                    && r.a.frameDuration == a.frameDuration
                    && ShowsFrame(r.a, a, a.sequence.value.frames[r.a.currentFrame]))
              && (a.currentFrame + 1 == n && !a.repeat ==>
                    r.a == StopAnimation(a).(currentFrame := n))
    ensures Ready(a) && a.animating ==> Ready(r.a)
  {
    var a1 := a.(currentFrame := a.currentFrame + 1);
    if a1.sequence.None? then Ran(a1, true)
    else
      var fs := a1.sequence.value.frames;
      if a1.currentFrame >= |fs| && !a1.repeat then Ran(StopAnimation(a1), false)
      else
        var a2 := if a1.currentFrame >= |fs| then a1.(currentFrame := 0) else a1;
        if a2.currentFrame >= |fs| then Ran(a2, true)
        else Ran(SetSprite(a2, fs[a2.currentFrame]).(currentFrameTime := 0.0), false)
  }

  /** The pause countdown at the start of `Update`: a timed pause runs down by `dt` and ends once
      it reaches zero. An indefinite pause (duration 0, or a negative duration) never runs down. */
  function CountDown(a: Animator, dt: real): (r: Animator)
    ensures a.pauseDuration <= 0.0 ==> r == a
    ensures a.pauseDuration > 0.0 && a.pauseDuration - dt <= 0.0 ==> r == UnpauseAnimation(a)
    ensures a.pauseDuration > 0.0 && a.pauseDuration - dt > 0.0 ==>
              r == a.(pauseDuration := a.pauseDuration - dt)
  {
    if a.pauseDuration > 0.0 then
      var a1 := a.(pauseDuration := a.pauseDuration - dt);
      if a1.pauseDuration <= 0.0 then UnpauseAnimation(a1) else a1
    else a
  }

  /** `Update`, once per frame with the frame's elapsed time `dt`. */
  function Update(a: Animator, dt: real): (r: Ran)
    ensures !a.animating ==> r == Ran(a, false)
    ensures Sound(a) ==> Sound(r.a)
    ensures Ready(a) ==> !r.threw && Ready(r.a)
  {
    if !a.animating then Ran(a, false)
    else
      var a1 := CountDown(a, dt);
      if a1.paused then Ran(a1, false)
      else
        var a2 := a1.(currentFrameTime := a1.currentFrameTime + dt);
        if a2.currentFrameTime >= a2.frameDuration then IncrementFrame(a2) else Ran(a2, false)
  }

  /** A running animation either keeps its frame or moves on by exactly one: to the next frame,
      to frame 0 on a wrap, or (stopping) one past the end. The sprite changes only with the
      frame. */
  lemma AtMostOneStep(a: Animator, dt: real)
    requires Ready(a) && a.animating
    ensures var r := Update(a, dt).a;
            var n := |a.sequence.value.frames|;
            || (r.currentFrame == a.currentFrame && r.shown == a.shown)
            || (r.animating && r.currentFrame == (if a.currentFrame + 1 < n then a.currentFrame + 1 else 0))
            || (!r.animating && r.currentFrame == n == a.currentFrame + 1 && r.shown == a.shown)
  {
  }

  /** A paused animation whose pause is still running after `dt`, or that is paused indefinitely,
      keeps its frame, its sprite and its frame time. */
  lemma PausedHoldsFrame(a: Animator, dt: real)
    requires a.animating && a.paused && (a.pauseDuration <= 0.0 || a.pauseDuration - dt > 0.0)
    ensures var r := Update(a, dt);
            && !r.threw && r.a.paused && r.a.animating
            && r.a.currentFrame == a.currentFrame && r.a.shown == a.shown
            && r.a.currentFrameTime == a.currentFrameTime
  {
  }

  /** A timed pause that runs out during `dt` is lifted, and the same call already counts `dt`
      towards the current frame. */
  lemma PauseEndsAndPlays(a: Animator, dt: real)
    requires Ready(a) && a.animating && a.paused && a.pauseDuration > 0.0 && a.pauseDuration - dt <= 0.0
    requires a.currentFrameTime + dt < a.frameDuration
    ensures Update(a, dt) == Ran(a.(paused := false, pauseDuration := 0.0,
                                    currentFrameTime := a.currentFrameTime + dt), false)
  {
  }

  /** Stopping makes the animator inert: updates, pauses and stopping on a frame then change
      nothing. */
  lemma StoppedIsInert(a: Animator, dt: real, d: real, last: bool)
    ensures var s := StopAnimation(a);
            Update(s, dt) == Ran(s, false) && PauseAnimation(s, d) == s
            && StopAnimationOn(s, last) == Ran(s, false)
  {
  }

  /** Starting the same animation again while it runs is ignored, even with a different `repeat`;
      so starting it every frame does not hold it on frame 0. */
  lemma RestartIgnored(a: Animator, s: Clip, duration: real, rep: bool, rep2: bool, flip: bool)
    requires !StartAnimation(a, Some(s), duration, rep, flip).threw
    ensures var b := StartAnimation(a, Some(s), duration, rep, flip).a;
            StartAnimation(b, Some(s), duration, rep2, flip) == Ran(b, false)
  {
  }

  /** `n` frame advances in a row. */
  function Advance(a: Animator, n: nat): (r: Animator)
    ensures Ready(a) ==> Ready(r)
    decreases n
  {
    if n == 0 then a else Advance(IncrementFrame(a).a, n - 1)
  }

  /** A repeating animation cycles through its frames: within one round of advances it is on
      frame start + k, wrapped once past the end, and still running; a full round brings it back
      to the frame it started on. */
  lemma {:induction false} RepeatCycles(a: Animator, k: nat)
    requires Ready(a) && a.animating && a.repeat
    requires k <= |a.sequence.value.frames|
    ensures var n := |a.sequence.value.frames|;
            var r := Advance(a, k);
            && r.animating && r.repeat && r.sequence == a.sequence
            && r.currentFrame == (if a.currentFrame + k < n then a.currentFrame + k
                                  else a.currentFrame + k - n)
    ensures k == |a.sequence.value.frames| ==> Advance(a, k).currentFrame == a.currentFrame
    decreases k
  {
    if k > 0 {
      RepeatCycles(IncrementFrame(a).a, k - 1);
    }
  }

  /** A single-shot animation plays each remaining frame in order, still running, and the advance
      past its last frame stops it. */
  lemma {:induction false} PlaysOnceThenStops(a: Animator, k: nat)
    requires Ready(a) && a.animating && !a.repeat
    requires a.currentFrame + k <= |a.sequence.value.frames|
    ensures var r := Advance(a, k);
            var n := |a.sequence.value.frames|;
            && r.sequence == a.sequence
            && (a.currentFrame + k < n ==> r.animating && r.currentFrame == a.currentFrame + k)
            && (a.currentFrame + k == n ==> !r.animating && r.currentFrame == n)
    decreases k
  {
    if k > 0 {
      var b := IncrementFrame(a).a;
      if a.currentFrame + 1 < |a.sequence.value.frames| {
        PlaysOnceThenStops(b, k - 1);
      }
    }
  }
}
